=== FILE: README.md ===
# Claude LAN Manager — a verified model of its core

Claude LAN Manager opens one coding agent per "space". A space is a directory tied to a set of devices on the home network. Each device runs a small tool server, reached over HTTP at `http://<ip>:<port>/mcp`.

The manager writes two files into the space:
- a role file, `CLAUDE.md`;
- a tool manifest, `.mcp.json`, naming exactly the space's devices.

It then starts the agent in a terminal with flags that make it load tool servers from that manifest and from nowhere else.

This project models four parts of that behaviour in Dafny and proves properties of the model.

- **Configuration** (`config.dfy`, module `Config`). It models:
  - devices, spaces and the application configuration;
  - the derived paths of a space;
  - the endpoint URL of a device;
  - how a space's device ids are resolved against the device table;
  - the tool manifest built from the resolved devices;
  - the title line and device list of the role file.
- **An abstract filesystem** (`files.dfy`, module `Files`). It has two parts:
  - a value `FsState`, which holds a map from path to content plus a set of directories;
  - a class `FileSystem`, whose two operations change that state in place.

  The two operations are `mkdir` with `exist_ok` and a whole-file write. Each fails in one modelled way: `FileExistsError` when a regular file sits at the directory's path, `IsADirectoryError` when a directory sits at the file's path.
- **Opening a space** (`launcher.dfy`, module `Launcher`). It models:
  - `ensure_space_exists`, which creates the directories, writes the role file once and rewrites the manifest every time;
  - the agent command line and the per-terminal argument vector of `launch_claude_in_terminal`.
- **Setup** (`setup.dfy`, module `Setup`). It models:
  - `initialize_space`: each file is written only when absent, unless the run is forced, and a `created` flag is returned;
  - `initialize_spaces`, which collects the ids of the spaces that had something written.
- **The example device server** (`server.dfy`, module `Server`). It models:
  - the four tools the server declares;
  - how `call_tool` renders each outcome of the shell, the disk or a lookup as one text block.

  The outcomes themselves are inputs, carried in a `Host` value.

`text.dfy` (module `Text`) holds the string helpers the models share:
- decimal rendering and parsing of integers, with a round trip;
- `Join`/`Split`, with a round trip;
- `strip`.

`wrappers.dfy` holds `Option` and `Result`.

The modelling choices:
- Each state-changing operation is a method that changes a `FileSystem` object in place: the object's own `MkDir` and `Write`, and module methods such as `EnsureSpaceExists` that take the object as a parameter. Each method is proved equal to a pure function over `FsState` (`EnsureSpace`, `InitSpace`, `InitializeAll`).
- The promised properties are lemmas about those functions.
- An exception is a run whose `ok` field is false. The `st` field holds the state left at the point the exception was raised.

Where the code and its own description differ, the model follows the code:
- `call_tool` does raise (a `KeyError`) when a required argument is missing. That lookup happens before any `try`. `CallTool` returns `Err(MissingArgument(key))` for it.
- The memory command of `get_system_info` is `free -h | head -2`. Its output normally spans two lines, so the block has six newline-separated lines only when no value holds a newline. `SystemInfoBlock` states the six-line layout under exactly that condition.
- `xterm` and unknown terminals get the unquoted shell line `cd <path> && <cmd>`, as written. A path containing spaces is not protected.
- The agent command is handed to a shell, which parses it again. The manifest path is only put inside double quotes, with nothing escaped. A `"`, `$`, backquote or `\` in `spaces_base_path` or in a space id therefore changes the arguments the agent receives. For example, the id `x" --mcp-config "/tmp/o` makes the agent also load `/tmp/o/.mcp.json`. The strict scoping holds for the command string, not for what every id makes of it after shell parsing.
- A successful `read_file` returns the file's content unchanged. A file whose content is a failure message, such as `File not found: <path>`, therefore gives the same reply as that failure. `ReadFailuresDistinct` keeps the failures apart from each other only, and `ReadContentAmbiguous` states the clash.
- A space's directory is `spaces_base_path / id` with the id used as it is. An id holding `/` can put one space inside another: the space `x/logs` gets the logs directory of space `x` (`NestedIdShares`). Spaces whose ids are single segments own disjoint paths (`LoadedSpacesApart`). The ids `""`, `.` and `..` are excluded there: `pathlib` drops an empty or `.` segment, so such a space's directory is the base directory itself, and `..` names the base's parent.
- `mkdir` with `exist_ok` raises when a regular file sits at the path. `Path.exists()` is true for a directory. So a directory at `CLAUDE.md` counts as present and is skipped. A directory at `.mcp.json` makes the write raise.

## Model

| member | source | states |
|---|---|---|
| Config.LoadedSpacesApart | src/claude_lan_manager/config.py:129-137 | two spaces loaded under different ids that hold no `/` and are none of `""`, `.`, `..` share none of their directory, role file, manifest, logs directory and logs README, so setting up one never writes into the other |
| Config.NestedIdShares | src/claude_lan_manager/config.py:133 | for every id `x`, a space loaded under the id `x/logs` has the logs directory of space `x` as its own directory |
| Config.SpaceLayout | src/claude_lan_manager/config.py:40-50 | the role file, manifest and logs directory paths all start with `<space directory>/`, and the directory and its three derived paths are pairwise different |
| Config.McpUrlRoundTrip | src/claude_lan_manager/config.py:24-27 | parsing a device's endpoint URL gives back exactly its address and port, for every address (colons included) and every port, negative ones too |
| Config.GetDevicesForSpace | src/claude_lan_manager/config.py:177-179 | the result has exactly one device per id that the table resolves, so it is never longer than the space's id list |
| Config.DevicesForSpace | src/claude_lan_manager/config.py:177-179 | every resolvable id puts its table entry at the position given by the resolvable ids before it, in the space's order, and every returned device is the table entry of some resolvable id of the space |
| Config.ServerNameInjective | src/claude_lan_manager/config.py:194 | distinct device ids give distinct server names `<id>-mcp` |
| Config.GenerateMcpJson | src/claude_lan_manager/config.py:182-200 | the manifest's keys are exactly `<id>-mcp` for the given devices (none for an empty list); every entry is `http` with the URL of a device whose name is its key, and when ids repeat the last device with that id wins |
| Config.ManifestIsolation | src/claude_lan_manager/config.py:177-200 | for a table keyed by device id, the space's manifest names exactly the ids that are both listed by the space and present in the table, and the entry of each is the `http` endpoint of that table device |
| Config.DeviceListLines | src/claude_lan_manager/config.py:205-208 | no devices give an empty device list; when no device field holds a newline, a non-empty list splits on newlines into exactly one `- **name** (ip:port): description` line per device, in input order |
| Config.GenerateClaudeMd | src/claude_lan_manager/config.py:203-258 | the role file starts with `# <role>`, a blank line and the role description, and ends with the device list followed by the fixed closing sections |
| Config.ClaudeMdStartsWithTitle | src/claude_lan_manager/config.py:221 | the role file begins with `# <role>` followed by a newline |
| Config.ClaudeMdTitle | src/claude_lan_manager/config.py:210-221 | when the name the category puts in the title holds no newline (the space name for `group`, the first device's name for any other category, none for `consolidated`), the first line of the role file is exactly `# <role>` |
| Config.TitleByCategory | src/claude_lan_manager/config.py:210-219 | the title is `# LAN Manager` for a consolidated space, `# <space name>` for a group, `# <first device name> Manager` otherwise, and `# Unknown Device Manager` when no device resolved |
| Files.StepsBehave | src/claude_lan_manager/launcher.py:17-31 | mkdir and write keep files and directories apart, touch only their own path, and repeating a successful one changes nothing |
| Files.FileSystem.MkDir | src/claude_lan_manager/launcher.py:17-18 | mkdir with `exist_ok` fails exactly when a regular file is at the path, and otherwise adds the directory |
| Files.FileSystem.Write | src/claude_lan_manager/launcher.py:26-31 | a write fails exactly when a directory is at the path, and otherwise makes the file hold the new content |
| Launcher.EnsureSpaceFails | src/claude_lan_manager/launcher.py:11-31 | opening a space fails exactly when a regular file is where the space or logs directory goes, or a directory is where the manifest goes |
| Launcher.EnsureSpaceEffect | src/claude_lan_manager/launcher.py:17-31 | after a successful run both directories exist; the manifest holds the manifest of the space's resolved devices whatever it held; the role file is generated only when absent and kept unchanged when present; no other file appears |
| Launcher.EnsureSpaceFrame | src/claude_lan_manager/launcher.py:11-31 | even when raising part-way, no directory but the two of the space is created, no file but the role file and manifest is written, nothing is removed, and files and directories stay apart |
| Launcher.EnsureSpaceIdempotent | src/claude_lan_manager/launcher.py:17-31 | opening a space a second time with the same configuration leaves the state exactly as the first run left it, manifest included |
| Launcher.EnsureSpaceExists | src/claude_lan_manager/launcher.py:11-31 | the in-place operation ends in exactly the state and success flag of the specification above |
| Launcher.AgentCommand | src/claude_lan_manager/launcher.py:57 | the agent command is exactly the configured agent command followed by `--strict-mcp-config --mcp-config "<manifest>"`, with nothing in between |
| Launcher.TerminalArgvShape | src/claude_lan_manager/launcher.py:59-96 | every argument vector starts with the terminal name and its last argument ends with the command; konsole, gnome-terminal, kitty and alacritty pass the directory right after their own option and end with `bash -c <cmd>`; xterm and every other terminal get exactly `[terminal, -e, cd <dir> && <cmd>]` |
| Launcher.LaunchIsStrictlyScoped | src/claude_lan_manager/launcher.py:46-96 | whatever the terminal, the launched command line ends with the strict-scope flags naming the space's own manifest, as a string handed to a shell |
| Launcher.LaunchClaudeInTerminal | src/claude_lan_manager/launcher.py:34-105 | launching first materialises the space; it yields an argument vector exactly when that succeeded, and then the manifest the command names holds exactly the manifest of the space's resolved devices |
| Setup.LogsReadmeStartsWithTitle | src/claude_lan_manager/setup.py:65-76 | for every space name the logs README begins with the line `# <name> Logs` |
| Setup.LogsReadmeTitle | src/claude_lan_manager/setup.py:65-76 | the first line of the logs README is `# <space name> Logs` |
| Setup.WriteUnlessPresentEffect | src/claude_lan_manager/setup.py:50-53 | a guarded write happens exactly when forced or nothing is at the path, fails only when forced onto a directory, and otherwise leaves the state alone |
| Setup.InitSpaceFails | src/claude_lan_manager/setup.py:29-79 | setting up a space fails exactly when a regular file is in the way of a directory, or a forced write meets a directory |
| Setup.InitSpaceEffect | src/claude_lan_manager/setup.py:42-79 | after a successful run both directories exist; each of the role file, manifest and logs README holds its generated content when forced or when it was absent; the result is true exactly when forced or some file was absent |
| Setup.InitSpaceFrame | src/claude_lan_manager/setup.py:45-77 | only the space's two directories and three files are touched; without `force` a file already present keeps its content; files and directories stay apart |
| Setup.InitSpaceTwice | src/claude_lan_manager/setup.py:50-79 | a second unforced setup of the same space returns false and changes nothing |
| Setup.InitializeSpace | src/claude_lan_manager/setup.py:29-79 | the in-place operation ends in exactly the state, success flag and `created` result of the specification |
| Setup.ForcedRunListsAll | src/claude_lan_manager/setup.py:19-26 | a forced run that succeeds reports every space's id, in the configuration's order |
| Setup.ReportedIdsAreSpaces | src/claude_lan_manager/setup.py:19-26 | the run keeps the ids collected so far and adds only ids of spaces it was given |
| Setup.EachMaterialises | src/claude_lan_manager/setup.py:21-24 | a run removes nothing, keeps files and directories apart, and when it succeeds every space has its directories and files in place |
| Setup.NothingToDo | src/claude_lan_manager/setup.py:21-24 | an unforced run over spaces already in place writes nothing and reports no id |
| Setup.InitializeAllTwice | src/claude_lan_manager/setup.py:9-26 | running the whole setup again without `force` returns an empty list and changes nothing |
| Setup.InitializeNext | src/claude_lan_manager/setup.py:21-24 | one loop round does exactly what `initialize_space` does to the filesystem, reports its success, appends the space's id exactly when something was written, and stops the run when it raised |
| Setup.InitializeSpaces | src/claude_lan_manager/setup.py:9-26 | the loop ends in exactly the state, success flag and id list of the specification |
| Server.ToolsDeclared | examples/simple-mcp-server/server.py:45-109 | exactly four tools with distinct names; each requires only properties it declares; the fields `call_tool` looks up for a name are exactly those its tool requires, and only declared names have any |
| Server.CompletedOutput | examples/simple-mcp-server/server.py:128-132 | the text starts with stdout; it carries `\n[stderr]\n<stderr>` after stdout when stderr is non-empty; it ends with `\n[exit code: N]` when N is non-zero; its length is that of stdout plus the stderr block when stderr is non-empty plus the exit suffix when N is non-zero, so nothing else is added; with empty stderr it is stdout alone or stdout followed by the exit suffix |
| Server.ExitCodeReported | examples/simple-mcp-server/server.py:128-133 | a non-zero exit status is always on the last line of the reply and reads back as itself, whatever the command printed |
| Server.NoOutputMarker | examples/simple-mcp-server/server.py:128-133 | the reply is `(no output)` exactly when stderr is empty, the status is 0 and stdout is empty or is that very text |
| Server.ReadFailuresDistinct | examples/simple-mcp-server/server.py:139-150 | not-found, permission and other read failures give texts that read back as the failure they report, so no two are confused |
| Server.ReadContentAmbiguous | examples/simple-mcp-server/server.py:141-146 | a file whose content is a failure message gives the same reply as that failure, and that reply reads back as the failure |
| Server.WriteOutcomesDistinct | examples/simple-mcp-server/server.py:152-162 | success, permission failure and other write failures give texts that read back as their outcome |
| Server.SystemInfoBlock | examples/simple-mcp-server/server.py:164-185 | when no value spans lines, the block is exactly six `title: value` lines in the order hostname, uptime, memory, disk, cpu, os, each value the stripped stdout of its command (whatever its exit status) or `(unavailable)` when running it raised |
| Server.GetSystemInfo | examples/simple-mcp-server/server.py:175-185 | the loop yields the information lines of the command table joined by newlines |
| Server.CallTool | examples/simple-mcp-server/server.py:112-189 | a call raises exactly when a required field of a known tool is missing; otherwise it answers with exactly one text block, which is the run, read, write or system-information text for the known tools and `Unknown tool: <name>` for any other name; the timeout defaults to 60 |

## Left out

- Loading and saving the configuration file is not modelled (YAML, environment variables and `.env` handling through outside libraries). The model takes a loaded configuration as input. `Config.LoadSpace` models only how a loaded space gets its directory.
- The device table is a map, and the list of spaces is a sequence in the order the dictionary iterates.
- Paths are plain strings joined with `/`. Normalisation, `..`, symbolic links and the creation of missing ancestors (`parents=True`) are not modelled.
- JSON encoding of the manifest (`json.dump` with indentation) is not modelled. The manifest file holds the manifest value itself.
- A file's content is named by what produced it: `RoleDoc(space, devices)` for the role file, whose text is `Config.GenerateClaudeMd(space, devices)`, and `LogsDoc(space)` for the logs README, whose text is `Setup.LogsReadme(space)`. The launcher and setup proofs state which document lands at which path, not its characters.
- Process spawning is not modelled: the environment copy, `Popen`, `start_new_session` and the PATH lookups of `check_terminal_available`/`check_claude_available`. The model stops at the argument vector handed to the spawner.
- The fixed prose of the role file is a constant. Only its title, role description and device list are stated.
- The GUI (`app.py`, `multiplexer.py`), `copy_example_config`, `setup_cli` and the progress output of setup are not modelled.
- In the device server, shell execution, timeouts, the disk and the MCP transport are not modelled. What the shell, the disk and the host name answer is an input in `Host`. So the promise that a successful `write_file` leaves the file holding the content is not modelled.
- Argument values of the device server are strings or integers. Floats and other JSON values are not modelled.
- The outer `Error getting system info` branch of `get_system_info` is not modelled. Nothing in its `try` can raise once each command's own errors are caught.
- Server.SystemInfoBlock: states the six-line layout only when no value holds a newline, because the memory command usually prints two lines.
- Config.ClaudeMdTitle: states the first line only when the name the category puts in the title holds no newline, because a newline there would split the title.
- Setup.LogsReadmeTitle: states the first line only when the space name holds no newline, for the same reason.
- Setup.InitSpaceTwice: requires that no path is both a file and a directory, which a real filesystem guarantees.
- Setup.InitializeAllTwice: requires the same condition as `Setup.InitSpaceTwice`.
- Setup.ReportedIdsAreSpaces: states only that reported ids come from the given spaces. The exact list, with an id appended exactly when its space reported true, is the definition `InitializeEach`, and `Setup.InitializeSpaces` is proved equal to it.
- Files.FileSystem.MkDir: does not model `FileNotFoundError` for a missing parent directory, since ancestors are not modelled.
- Files.FileSystem.MkDir, Files.FileSystem.Write, Launcher.EnsureSpaceFails, Setup.InitSpaceFails: the filesystem has no permissions and no ancestor directories. "Fails exactly when" ranges over the two modelled errors only: a regular file where a directory goes, and a directory where a file goes. `PermissionError`, and `NotADirectoryError` when an ancestor is a regular file, are not modelled.
- Launcher.EnsureSpaceFrame, Setup.InitSpaceFrame: `mkdir(parents=True)` also creates missing ancestors, such as the spaces base directory on a first run. The frame bounds the directories the model creates to the space's two and leaves those ancestors out.
- Launcher.AgentCommand, Launcher.LaunchIsStrictlyScoped: both state the command string the terminal's shell receives, not the arguments the agent gets after the shell parses that string. Shell quoting is not modelled, so a `"`, `$`, backquote or `\` in the base path or a space id can add or change arguments there.

=== FILE: config.dfy ===
/** The configuration store: devices, spaces, the device resolution of a
    space, the tool manifest (`.mcp.json`) and the role file (`CLAUDE.md`)
    generated from them. A loaded configuration is an input value here; how
    it is read from YAML and the environment is not part of this model. */
module Config {
  import opened Wrappers
  import opened Text

  /** A network device exposing a tool endpoint. */
  datatype Device = Device(
    id: string,
    name: string,
    ip: string,
    mcpPort: int,
    description: string,
    category: string,
    icon: string)

  /** A space: a working directory plus the ids of the devices it may reach. */
  datatype Space = Space(
    id: string,
    name: string,
    path: string,
    devices: seq<string>,
    category: string,
    description: string)

  /** The application configuration; `spaces` lists the spaces in the
      iteration order of the source's dictionary. */
  datatype AppConfig = AppConfig(
    spacesBasePath: string,
    terminalEmulator: string,
    claudeCmd: string,
    devices: map<string, Device>,
    spaces: seq<Space>)

  /** `dir / name` for a directory path and one path segment. */
  function JoinPath(dir: string, name: string): string
  {
    dir + "/" + name
  }

  /** The directory of a space read from the configuration file. */
  function LoadedSpacePath(spacesBasePath: string, id: string): string
  {
    JoinPath(spacesBasePath, id)
  }

  function ClaudeMdPath(space: Space): string { JoinPath(space.path, "CLAUDE.md") }

  function McpJsonPath(space: Space): string { JoinPath(space.path, ".mcp.json") }

  function LogsPath(space: Space): string { JoinPath(space.path, "logs") }

  /** `space.logs_path / "README.md"`, the file that space setup writes into
      the logs directory. */
  function LogsReadmePath(space: Space): string { JoinPath(LogsPath(space), "README.md") }

  /** The derived paths of a space start with its directory and a `/`, and
      are pairwise different, so writing one never touches another. */
  lemma SpaceLayout(space: Space)
    ensures var p := space.path + "/";
      p <= ClaudeMdPath(space) && p <= McpJsonPath(space) && p <= LogsPath(space)
    ensures space.path != ClaudeMdPath(space) && space.path != McpJsonPath(space)
            && space.path != LogsPath(space)
    ensures ClaudeMdPath(space) != McpJsonPath(space) && ClaudeMdPath(space) != LogsPath(space)
            && McpJsonPath(space) != LogsPath(space)
  {
    var n := |space.path|;
    assert ClaudeMdPath(space)[n + 1] == 'C';
    assert McpJsonPath(space)[n + 1] == '.';
    assert LogsPath(space)[n + 1] == 'l';
  }

  /** A space as the configuration loader builds it: its directory is
      `spaces_base_path / id`. */
  function LoadSpace(spacesBasePath: string, id: string, name: string, devices: seq<string>,
                     category: string, description: string): (space: Space)
  {
    Space(id, name, LoadedSpacePath(spacesBasePath, id), devices, category, description)
  }

  /** The paths a space owns: its directory, the three paths inside it and
      the README inside its logs directory. These are all the paths that
      setting up or launching the space creates or writes. */
  function OwnedPaths(space: Space): set<string>
  {
    {space.path, ClaudeMdPath(space), McpJsonPath(space), LogsPath(space), LogsReadmePath(space)}
  }

  /** Two spaces loaded under different ids, each a single path segment, own
      no path in common: setting up one never writes into the other. The ids
      `""`, `.` and `..` are not segments that name a directory of their own
      under the base, so they are excluded. */
  lemma LoadedSpacesApart(base: string, a: Space, b: Space)
    requires a == LoadSpace(base, a.id, a.name, a.devices, a.category, a.description)
    requires b == LoadSpace(base, b.id, b.name, b.devices, b.category, b.description)
    requires a.id != b.id && '/' !in a.id && '/' !in b.id
    requires a.id !in {"", ".", ".."} && b.id !in {"", ".", ".."}
    ensures OwnedPaths(a) !! OwnedPaths(b)
  {
    LoadedOwnedPaths(base, a);
    LoadedOwnedPaths(base, b);
    forall sx, sy | sx in SegmentSuffixes && sy in SegmentSuffixes
      ensures JoinPath(base, a.id) + sx != JoinPath(base, b.id) + sy
    {
      SegmentsApart(base, a.id, b.id, sx, sy);
    }
  }

  /** What follows the directory of a space in the paths it owns. */
  const SegmentSuffixes: set<string> := {"", "/CLAUDE.md", "/.mcp.json", "/logs", "/logs/README.md"}

  /** The paths a loaded space owns are its directory followed by one of the
      suffixes. */
  lemma LoadedOwnedPaths(base: string, a: Space)
    requires a == LoadSpace(base, a.id, a.name, a.devices, a.category, a.description)
    ensures OwnedPaths(a) == set sx | sx in SegmentSuffixes :: JoinPath(base, a.id) + sx
  {
    var dir := JoinPath(base, a.id);
    assert ClaudeMdPath(a) == dir + "/CLAUDE.md";
    assert McpJsonPath(a) == dir + "/.mcp.json";
    assert LogsPath(a) == dir + "/logs";
    assert LogsReadmePath(a) == dir + "/logs/README.md";
    assert a.path == dir + "";
  }

  /** Appending a suffix that is empty or starts a new segment keeps the
      paths of two different segments apart. */
  lemma SegmentsApart(base: string, x: string, y: string, sx: string, sy: string)
    requires x != y && '/' !in x && '/' !in y
    requires sx == [] || sx[0] == '/'
    requires sy == [] || sy[0] == '/'
    ensures JoinPath(base, x) + sx != JoinPath(base, y) + sy
  {
    var u, v := x + sx, y + sy;
    if |u| == |v| {
      if |x| < |y| {
        assert u[|x|] != v[|x|];
      } else if |y| < |x| {
        assert u[|y|] != v[|y|];
      } else {
        assert u[..|x|] == x && v[..|y|] == y;
      }
    }
    var p := base + "/";
    assert JoinPath(base, x) + sx == p + u && JoinPath(base, y) + sy == p + v;
    assert (p + u)[|p|..] == u && (p + v)[|p|..] == v;
  }

  /** An id that is not a single segment can land inside another space: the
      space loaded as `x/logs` has the logs directory of space `x` as its own
      directory, whatever `x` is. */
  lemma NestedIdShares(base: string, x: string, a: Space, b: Space)
    requires a == LoadSpace(base, x, a.name, a.devices, a.category, a.description)
    requires b == LoadSpace(base, x + "/logs", b.name, b.devices, b.category, b.description)
    ensures b.path == LogsPath(a) && b.path in OwnedPaths(a) * OwnedPaths(b)
  {
    assert JoinPath(base, x + "/logs") == JoinPath(JoinPath(base, x), "logs");
  }

  // ---------------------------------------------------------------------------
  // Endpoint URL

  /** `Device.mcp_url`. */
  function McpUrl(d: Device): string
  {
    "http://" + d.ip + ":" + IntToString(d.mcpPort) + "/mcp"
  }

  datatype Endpoint = Endpoint(host: string, port: int)

  /** Reads an endpoint URL back: scheme `http://`, path `/mcp`, and the port
      after the last colon of the authority. */
  function ParseMcpUrl(url: string): Option<Endpoint>
  {
    if |url| < 11 || url[..7] != "http://" || !EndsWith(url, "/mcp") then None
    else
      var authority := url[7..|url| - 4];
      match LastIndexOf(authority, ':')
      case None => None
      case Some(i) =>
        match ParseInt(authority[i + 1..])
        case None => None
        case Some(port) => Some(Endpoint(authority[..i], port))
  }

  /** The endpoint URL names exactly the device's address and port, for every
      address (IPv6 literals with colons included) and every port. */
  lemma McpUrlRoundTrip(d: Device)
    ensures ParseMcpUrl(McpUrl(d)) == Some(Endpoint(d.ip, d.mcpPort))
  {
    var url := McpUrl(d);
    var authority := d.ip + ":" + IntToString(d.mcpPort);
    assert url == "http://" + authority + "/mcp";
    assert url[..7] == "http://";
    assert url[7..|url| - 4] == authority;
    assert EndsWith(url, "/mcp");
    AuthorityParts(d.ip, d.mcpPort);
  }

  /** In `ip:port` the last colon is the one before the port, and what follows
      it parses back as the port. */
  lemma AuthorityParts(ip: string, port: int)
    ensures var authority := ip + ":" + IntToString(port);
      && LastIndexOf(authority, ':') == Some(|ip|)
      && authority[..|ip|] == ip
      && ParseInt(authority[|ip| + 1..]) == Some(port)
  {
    var digits := IntToString(port);
    var authority := ip + ":" + digits;
    IntToStringHasNo(port, ':');
    LastIndexOfBefore(ip, ':', digits);
    assert authority[|ip| + 1..] == digits;
    assert authority[..|ip|] == ip;
    IntToStringRoundTrip(port);
  }

  // ---------------------------------------------------------------------------
  // Device resolution

  /** How many of `ids` name a device of the table. */
  function CountResolved(table: map<string, Device>, ids: seq<string>): (n: nat)
    ensures n <= |ids|
  {
    if ids == [] then 0
    else CountResolved(table, ids[..|ids| - 1]) + (if ids[|ids| - 1] in table then 1 else 0)
  }

  /** The devices of `table` named by `ids`, in order, skipping ids the
      table lacks. */
  function Resolve(table: map<string, Device>, ids: seq<string>): (r: seq<Device>)
    ensures |r| == CountResolved(table, ids)
  {
    if ids == [] then []
    else
      var front := Resolve(table, ids[..|ids| - 1]);
      var last := ids[|ids| - 1];
      if last in table then front + [table[last]] else front
  }

  /** The device of the i-th id lands at the position given by the number of
      resolvable ids before it. */
  lemma {:induction false} ResolvePlaces(table: map<string, Device>, ids: seq<string>)
    ensures forall i :: 0 <= i < |ids| && ids[i] in table ==>
              var k := CountResolved(table, ids[..i]);
              k < |Resolve(table, ids)| && Resolve(table, ids)[k] == table[ids[i]]
    decreases |ids|
  {
    if ids != [] {
      var n := |ids| - 1;
      var front := ids[..n];
      var p := Resolve(table, front);
      var r := Resolve(table, ids);
      assert r == if ids[n] in table then p + [table[ids[n]]] else p;
      ResolvePlaces(table, front);
      forall i | 0 <= i < |ids| && ids[i] in table
        ensures var k := CountResolved(table, ids[..i]); k < |r| && r[k] == table[ids[i]]
      {
        if i < n {
          assert front[i] == ids[i] && front[..i] == ids[..i];
          var k := CountResolved(table, ids[..i]);
          assert k < |p| && r[k] == p[k];
        } else {
          assert ids[..i] == front;
        }
      }
    }
  }

  /** `d` is the table's device of one of `ids`. */
  predicate NamedBy(table: map<string, Device>, ids: seq<string>, d: Device)
  {
    exists i :: 0 <= i < |ids| && ids[i] in table && d == table[ids[i]]
  }

  /** Every resolved device is the table's device of some id that resolves. */
  lemma {:induction false} ResolveSource(table: map<string, Device>, ids: seq<string>, k: nat)
    requires k < |Resolve(table, ids)|
    ensures NamedBy(table, ids, Resolve(table, ids)[k])
    decreases |ids|
  {
    var n := |ids| - 1;
    var front := ids[..n];
    var p := Resolve(table, front);
    var r := Resolve(table, ids);
    assert r == if ids[n] in table then p + [table[ids[n]]] else p;
    if k < |p| {
      ResolveSource(table, front, k);
      var i :| 0 <= i < |front| && front[i] in table && p[k] == table[front[i]];
      assert ids[i] == front[i] && r[k] == p[k];
    } else {
      assert r[k] == table[ids[n]];
    }
    assert r[k] == Resolve(table, ids)[k];
  }

  /** `AppConfig.get_devices_for_space`: the devices named by the space, in the
      space's order, with ids missing from the table dropped. */
  function GetDevicesForSpace(config: AppConfig, space: Space): (r: seq<Device>)
    ensures |r| == CountResolved(config.devices, space.devices) <= |space.devices|
  {
    Resolve(config.devices, space.devices)
  }

  /** The result has one device per resolvable id, in the space's order: the
      device of the i-th id sits at the position given by the number of
      resolvable ids before it, and every returned device is the table's
      device of some resolvable id. */
  lemma DevicesForSpace(config: AppConfig, space: Space)
    ensures var r := GetDevicesForSpace(config, space);
      && (forall i :: 0 <= i < |space.devices| && space.devices[i] in config.devices ==>
            var k := CountResolved(config.devices, space.devices[..i]);
            k < |r| && r[k] == config.devices[space.devices[i]])
      && (forall k :: 0 <= k < |r| ==> NamedBy(config.devices, space.devices, r[k]))
  {
    ResolvePlaces(config.devices, space.devices);
    forall k | 0 <= k < |Resolve(config.devices, space.devices)|
      ensures NamedBy(config.devices, space.devices, Resolve(config.devices, space.devices)[k])
    {
      ResolveSource(config.devices, space.devices, k);
    }
  }

  /** The table as the loader builds it: every device is stored under its own id. */
  predicate KeyedById(config: AppConfig)
  {
    forall id :: id in config.devices ==> config.devices[id].id == id
  }

  // ---------------------------------------------------------------------------
  // Tool manifest

  datatype McpServer = McpServer(transport: string, url: string)

  /** The `.mcp.json` document `{"mcpServers": {...}}`. */
  datatype Manifest = Manifest(mcpServers: map<string, McpServer>)

  /** The manifest key of a device: `<id>-mcp`. */
  function ServerName(id: string): string { id + "-mcp" }

  function ServerEntry(d: Device): McpServer { McpServer("http", McpUrl(d)) }

  lemma ServerNameInjective(a: string, b: string)
    ensures ServerName(a) == ServerName(b) ==> a == b
  {
    if ServerName(a) == ServerName(b) {
      assert a == ServerName(a)[..|a|];
    }
  }

  /** No later device in the list has the same id as the i-th. */
  predicate LastWithId(devices: seq<Device>, i: int)
    requires 0 <= i < |devices|
  {
    forall j :: i < j < |devices| ==> devices[j].id != devices[i].id
  }

  /** `generate_mcp_json`: one entry per device id, keyed `<id>-mcp`, and no
      other entry; each entry is the HTTP endpoint of a device with that id,
      and when ids repeat the later device wins. */
  function GenerateMcpJson(devices: seq<Device>): (m: Manifest)
    ensures m.mcpServers.Keys == set d | d in devices :: ServerName(d.id)
    ensures forall k :: k in m.mcpServers ==>
              exists i :: 0 <= i < |devices| && ServerName(devices[i].id) == k
                          && m.mcpServers[k] == ServerEntry(devices[i])
    ensures forall i :: 0 <= i < |devices| && LastWithId(devices, i) ==>
              m.mcpServers[ServerName(devices[i].id)] == ServerEntry(devices[i])
  {
    if devices == [] then Manifest(map[])
    else
      var last := devices[|devices| - 1];
      var prev := GenerateMcpJson(devices[..|devices| - 1]).mcpServers;
      ManifestStepKeys(devices, prev);
      ManifestStepEntries(devices, prev);
      ManifestStepLastWins(devices, prev);
      Manifest(prev[ServerName(last.id) := ServerEntry(last)])
  }

  lemma ManifestStepKeys(devices: seq<Device>, prev: map<string, McpServer>)
    requires devices != []
    requires prev.Keys == set d | d in devices[..|devices| - 1] :: ServerName(d.id)
    ensures prev[ServerName(devices[|devices| - 1].id) := ServerEntry(devices[|devices| - 1])].Keys
            == set d | d in devices :: ServerName(d.id)
  {
    var front, last := devices[..|devices| - 1], devices[|devices| - 1];
    assert devices == front + [last];
    assert forall d :: d in devices <==> d in front || d == last;
  }

  lemma ManifestStepEntries(devices: seq<Device>, prev: map<string, McpServer>)
    requires devices != []
    requires var front := devices[..|devices| - 1];
      forall k :: k in prev ==>
        exists i :: 0 <= i < |front| && ServerName(front[i].id) == k && prev[k] == ServerEntry(front[i])
    ensures var last := devices[|devices| - 1];
      var servers := prev[ServerName(last.id) := ServerEntry(last)];
      forall k :: k in servers ==>
        exists i :: 0 <= i < |devices| && ServerName(devices[i].id) == k && servers[k] == ServerEntry(devices[i])
  {
    var front, last := devices[..|devices| - 1], devices[|devices| - 1];
    var servers := prev[ServerName(last.id) := ServerEntry(last)];
    forall k | k in servers
      ensures exists i :: 0 <= i < |devices| && ServerName(devices[i].id) == k && servers[k] == ServerEntry(devices[i])
    {
      if k != ServerName(last.id) {
        var i :| 0 <= i < |front| && ServerName(front[i].id) == k && prev[k] == ServerEntry(front[i]);
        assert devices[i] == front[i];
      }
    }
  }

  lemma ManifestStepLastWins(devices: seq<Device>, prev: map<string, McpServer>)
    requires devices != []
    requires var front := devices[..|devices| - 1];
      && (forall d :: d in front ==> ServerName(d.id) in prev)
      && forall i :: 0 <= i < |front| && LastWithId(front, i) ==>
           prev[ServerName(front[i].id)] == ServerEntry(front[i])
    ensures var last := devices[|devices| - 1];
      var servers := prev[ServerName(last.id) := ServerEntry(last)];
      forall i :: 0 <= i < |devices| && LastWithId(devices, i) ==>
        servers[ServerName(devices[i].id)] == ServerEntry(devices[i])
  {
    var front, last := devices[..|devices| - 1], devices[|devices| - 1];
    var servers := prev[ServerName(last.id) := ServerEntry(last)];
    forall i | 0 <= i < |devices| && LastWithId(devices, i)
      ensures servers[ServerName(devices[i].id)] == ServerEntry(devices[i])
    {
      if i < |front| {
        assert devices[i] == front[i];
        ServerNameInjective(last.id, front[i].id);
        assert LastWithId(front, i) by {
          forall j | i < j < |front| ensures front[j].id != front[i].id {
            assert devices[j] == front[j];
          }
        }
      }
    }
  }

  /** The isolation guarantee: the manifest of a space has an entry for every
      id of the space that resolves in the device table and no other entry,
      and the entry of such an id is that device's HTTP endpoint. */
  lemma ManifestIsolation(config: AppConfig, space: Space)
    requires KeyedById(config)
    ensures var m := GenerateMcpJson(GetDevicesForSpace(config, space)).mcpServers;
      && m.Keys == (set id | id in space.devices && id in config.devices :: ServerName(id))
      && forall id :: id in space.devices && id in config.devices ==>
           m[ServerName(id)] == ServerEntry(config.devices[id])
  {
    ManifestOnlyResolved(config, space);
    ManifestEntries(config, space);
  }

  /** Every manifest key comes from a resolvable id of the space. */
  lemma ManifestOnlyResolved(config: AppConfig, space: Space)
    requires KeyedById(config)
    ensures forall k :: k in GenerateMcpJson(GetDevicesForSpace(config, space)).mcpServers ==>
              exists id :: id in space.devices && id in config.devices && k == ServerName(id)
  {
    var ds := GetDevicesForSpace(config, space);
    ResolvedDevicesKeyed(config, space);
    forall k | k in GenerateMcpJson(ds).mcpServers
      ensures exists id :: id in space.devices && id in config.devices && k == ServerName(id)
    {
      var d :| d in ds && ServerName(d.id) == k;
    }
  }

  /** Every resolvable id of the space has its device's entry in the manifest. */
  lemma ManifestEntries(config: AppConfig, space: Space)
    requires KeyedById(config)
    ensures var m := GenerateMcpJson(GetDevicesForSpace(config, space)).mcpServers;
      forall id :: id in space.devices && id in config.devices ==>
        ServerName(id) in m && m[ServerName(id)] == ServerEntry(config.devices[id])
  {
    forall id | id in space.devices && id in config.devices
      ensures var m := GenerateMcpJson(GetDevicesForSpace(config, space)).mcpServers;
        ServerName(id) in m && m[ServerName(id)] == ServerEntry(config.devices[id])
    {
      ManifestEntry(config, space, id);
    }
  }

  lemma ManifestEntry(config: AppConfig, space: Space, id: string)
    requires KeyedById(config)
    requires id in space.devices && id in config.devices
    ensures var m := GenerateMcpJson(GetDevicesForSpace(config, space)).mcpServers;
      ServerName(id) in m && m[ServerName(id)] == ServerEntry(config.devices[id])
  {
    var ds := GetDevicesForSpace(config, space);
    var m := GenerateMcpJson(ds).mcpServers;
    ResolvedDevicesKeyed(config, space);
    ResolvedDeviceReturned(config, space, id);
    var d := config.devices[id];
    assert ServerName(d.id) in m;
    var j :| 0 <= j < |ds| && ServerName(ds[j].id) == ServerName(id) && m[ServerName(id)] == ServerEntry(ds[j]);
    ServerNameInjective(ds[j].id, id);
    assert ds[j] in ds;
  }

  /** With a table keyed by id, every resolved device is the table's device
      for its own id, and that id is listed by the space. */
  lemma ResolvedDevicesKeyed(config: AppConfig, space: Space)
    requires KeyedById(config)
    ensures forall d :: d in GetDevicesForSpace(config, space) ==>
              d.id in space.devices && d.id in config.devices && config.devices[d.id] == d
  {
    var ds := GetDevicesForSpace(config, space);
    DevicesForSpace(config, space);
    forall d | d in ds ensures d.id in space.devices && d.id in config.devices && config.devices[d.id] == d {
      var j :| 0 <= j < |ds| && ds[j] == d;
      var i :| 0 <= i < |space.devices| && space.devices[i] in config.devices && ds[j] == config.devices[space.devices[i]];
    }
  }

  /** Every resolvable id of the space contributes its device. */
  lemma ResolvedDeviceReturned(config: AppConfig, space: Space, id: string)
    requires id in space.devices && id in config.devices
    ensures config.devices[id] in GetDevicesForSpace(config, space)
  {
    var i :| 0 <= i < |space.devices| && space.devices[i] == id;
    var ds := GetDevicesForSpace(config, space);
    DevicesForSpace(config, space);
    var n := CountResolved(config.devices, space.devices[..i]);
    assert ds[n] == config.devices[id];
  }

  // ---------------------------------------------------------------------------
  // Role file

  /** The title of the role file: chosen by the space's category. */
  function Role(space: Space, devices: seq<Device>): string
  {
    if space.category == "consolidated" then "LAN Manager"
    else if space.category == "group" then space.name
    else (if devices == [] then "Unknown Device" else devices[0].name) + " Manager"
  }

  function RoleDescription(space: Space, devices: seq<Device>): string
  {
    if space.category == "consolidated" then "You are the consolidated LAN Manager for the home network."
    else if space.category == "group" then "You are the " + space.name + ", responsible for managing a group of related devices."
    else "You are the dedicated manager for " + (if devices == [] then "Unknown Device" else devices[0].name) + "."
  }

  /** One line of the "Managed Devices" section. */
  function DeviceLine(d: Device): string
  {
    "- **" + d.name + "** (" + d.ip + ":" + IntToString(d.mcpPort) + "): " + d.description
  }

  function DeviceLines(devices: seq<Device>): seq<string>
  {
    seq(|devices|, i requires 0 <= i < |devices| => DeviceLine(devices[i]))
  }

  function DeviceList(devices: seq<Device>): string
  {
    Join(DeviceLines(devices), "\n")
  }

  /** The fixed prose between the role description and the device list. */
  const RoleSection: string :=
    "\n\n## Your Role\n\n"
    + "You are a systems administration assistant. Your task is to help the user manage and "
    + "administer the device(s) under your control using the MCP tools available to you.\n\n"
    + "## Managed Devices\n\n"

  /** The fixed prose after the device list. */
  const ClosingSections: string :=
    "\n\n## Available Tools\n\n"
    + "You have MCP connections to the device(s) listed above. Use these tools to:\n"
    + "- Execute commands on the target system(s)\n"
    + "- Read and write files\n"
    + "- Check system status\n"
    + "- Perform administrative tasks\n\n"
    + "## Guidelines\n\n"
    + "1. **Be careful with destructive operations** - Always confirm before deleting files or making irreversible changes\n"
    + "2. **Log important actions** - Save notes and logs to the `logs/` subfolder\n"
    + "3. **Stay focused** - Only interact with the devices assigned to you\n"
    + "4. **Report issues** - If you encounter connectivity problems or errors, inform the user\n\n"
    + "## Logging\n\n"
    + "Save any important logs, notes, or documentation to the `logs/` subfolder in this space:\n"
    + "- `logs/session-YYYY-MM-DD.md` for session notes\n"
    + "- `logs/changes.md` for tracking configuration changes\n"
    + "- `logs/issues.md` for recording problems and resolutions\n\n"
    + "## Network Context\n\n"
    + "All devices are on the local network (10.0.0.0/24). MCP servers use Streamable HTTP "
    + "transport and are unauthenticated (local network only).\n"

  /** `generate_claude_md`: a `# <role>` title line, the role description, and
      the device list standing right before the closing sections. */
  function GenerateClaudeMd(space: Space, devices: seq<Device>): (text: string)
    ensures "# " + Role(space, devices) + "\n\n" + RoleDescription(space, devices) <= text
    ensures EndsWith(text, DeviceList(devices) + ClosingSections)
  {
    var head := "# " + Role(space, devices) + "\n\n" + RoleDescription(space, devices);
    var tail := DeviceList(devices) + ClosingSections;
    var text := head + RoleSection + tail;
    PrefixAndSuffix(head, RoleSection, tail);
    text
  }

  /** The name the space's category puts in its title holds no line break:
      the space name for a group, the first device's name for a single-device
      space, and none for a consolidated space. */
  predicate TitleNamesOnOneLine(space: Space, devices: seq<Device>)
  {
    if space.category == "consolidated" then true
    else if space.category == "group" then '\n' !in space.name
    else devices != [] ==> '\n' !in devices[0].name
  }

  /** The first line of the role file is its `# <role>` title. */
  lemma ClaudeMdTitle(space: Space, devices: seq<Device>)
    requires TitleNamesOnOneLine(space, devices)
    ensures FirstLine(GenerateClaudeMd(space, devices)) == "# " + Role(space, devices)
  {
    ClaudeMdStartsWithTitle(space, devices);
    TitleLine(space, devices, GenerateClaudeMd(space, devices));
  }

  /** Any text that starts with the title and a line break has the title as
      its first line. */
  lemma TitleLine(space: Space, devices: seq<Device>, text: string)
    requires TitleNamesOnOneLine(space, devices)
    requires "# " + Role(space, devices) + "\n" <= text
    ensures FirstLine(text) == "# " + Role(space, devices)
  {
    TitleHasNoNewline(space, devices);
    SplitFirstLine(text, "# " + Role(space, devices), '\n');
  }

  /** The title by category: `consolidated` gives "LAN Manager", `group` the
      space's name, anything else the first device's name followed by
      "Manager", or "Unknown Device Manager" when the space resolves no
      device. */
  lemma TitleByCategory(space: Space, devices: seq<Device>)
    ensures var title := "# " + Role(space, devices);
      && (space.category == "consolidated" ==> title == "# LAN Manager")
      && (space.category == "group" ==> title == "# " + space.name)
      && (space.category != "consolidated" && space.category != "group" && devices == [] ==>
            title == "# Unknown Device Manager")
      && (space.category != "consolidated" && space.category != "group" && devices != [] ==>
            title == "# " + devices[0].name + " Manager")
  {
    var role := Role(space, devices);
    if space.category != "consolidated" && space.category != "group" {
      var name := if devices == [] then "Unknown Device" else devices[0].name;
      assert role == name + " Manager";
      assert "# " + role == "# " + name + " Manager";
      if devices == [] {
        UnknownDeviceTitle();
      }
    }
  }

  lemma UnknownDeviceTitle()
    ensures "# " + ("Unknown Device" + " Manager") == "# Unknown Device Manager"
  {
    var t := "# " + ("Unknown Device" + " Manager");
    assert |t| == 24;
    assert forall i :: 0 <= i < 24 ==> t[i] == "# Unknown Device Manager"[i];
  }

  lemma ClaudeMdStartsWithTitle(space: Space, devices: seq<Device>)
    ensures "# " + Role(space, devices) + "\n" <= GenerateClaudeMd(space, devices)
  {
    LineThenBlank("# " + Role(space, devices), RoleDescription(space, devices));
  }

  lemma LineThenBlank(line: string, rest: string)
    ensures line + "\n" <= line + "\n\n" + rest
  {
    assert (line + "\n\n" + rest)[..|line| + 1] == line + "\n";
  }

  lemma TitleHasNoNewline(space: Space, devices: seq<Device>)
    requires TitleNamesOnOneLine(space, devices)
    ensures '\n' !in "# " + Role(space, devices)
  {
    var role := Role(space, devices);
    var title := "# " + role;
    assert '\n' !in role by {
      if space.category != "consolidated" && space.category != "group" {
        var name := if devices == [] then "Unknown Device" else devices[0].name;
        assert role == name + " Manager";
        assert forall i :: 0 <= i < |role| ==> role[i] != '\n';
      }
    }
    assert forall i :: 0 <= i < |title| ==> title[i] != '\n';
  }

  /** A space that resolves no device gets an empty device list. When no
      field of a device holds a line break, a non-empty device list reads
      back line by line as one `- **name** (ip:port): description` line per
      device, in the given order. */
  lemma DeviceListLines(devices: seq<Device>)
    requires forall i :: 0 <= i < |devices| ==>
               '\n' !in devices[i].name && '\n' !in devices[i].ip && '\n' !in devices[i].description
    ensures devices == [] ==> DeviceList(devices) == ""
    ensures devices != [] ==>
      var lines := Split(DeviceList(devices), '\n');
      |lines| == |devices| && forall i :: 0 <= i < |devices| ==> lines[i] == DeviceLine(devices[i])
  {
    if devices != [] {
      var lines := DeviceLines(devices);
      forall i | 0 <= i < |lines| ensures '\n' !in lines[i] {
        var d := devices[i];
        IntToStringHasNo(d.mcpPort, '\n');
        var p := IntToString(d.mcpPort);
        assert lines[i] == "- **" + d.name + "** (" + d.ip + ":" + p + "): " + d.description;
        assert forall k :: 0 <= k < |lines[i]| ==> lines[i][k] != '\n';
      }
      SplitJoin(lines, '\n');
    }
  }
}

=== FILE: files.dfy ===
/** An abstract filesystem as the space code sees it: regular files with their
    contents and a set of directories. Paths are plain strings; the two
    operations are `mkdir` with `exist_ok` and a whole-file write. Each can
    fail in one way only: a regular file where the directory goes, or a
    directory where the file goes. Permissions and ancestor directories are
    not modelled. */
module Files {
  import Config

  /** What a file holds, named by what produced it: the role file of a space
      (its text is `Config.GenerateClaudeMd(space, devices)`), the tool
      manifest serialised as JSON, or the logs README of a space (its text is
      `Setup.LogsReadme(space)`). Equal values stand for equal file text. */
  datatype Content =
    | RoleDoc(space: Config.Space, devices: seq<Config.Device>)
    | Json(manifest: Config.Manifest)
    | LogsDoc(logsOf: Config.Space)

  datatype FsState = FsState(files: map<string, Content>, dirs: set<string>)

  /** `Path.exists()`: true for a regular file and for a directory alike. */
  predicate Exists(st: FsState, p: string)
  {
    p in st.files || p in st.dirs
  }

  /** No path is both a regular file and a directory. */
  predicate Consistent(st: FsState)
  {
    st.files.Keys !! st.dirs
  }

  /** From `st` to `st'` nothing is removed, new directories are among
      `made`, and no file appears or changes outside `written`. */
  predicate Touches(st: FsState, st': FsState, written: set<string>, made: set<string>)
  {
    && st.dirs <= st'.dirs <= st.dirs + made
    && st.files.Keys <= st'.files.Keys <= st.files.Keys + written
    && forall p :: p in st.files && p !in written ==> st'.files[p] == st.files[p]
  }

  /** Two steps in a row touch no more than the two together, and a bound
      can always be widened. */
  lemma TouchesChain(a: FsState, b: FsState, c: FsState, w1: set<string>, m1: set<string>,
                     w2: set<string>, m2: set<string>, w: set<string>, m: set<string>)
    requires Touches(a, b, w1, m1) && Touches(b, c, w2, m2)
    requires w1 + w2 <= w && m1 + m2 <= m
    ensures Touches(a, c, w, m)
  {
  }

  /** The result of a step that may raise: `ok` is false when it raised, and
      `st` is the state left behind at that point. */
  datatype Run = Run(ok: bool, st: FsState)

  /** `Path.mkdir(exist_ok=True)`: an existing directory is not an error, a
      regular file at the path is (`FileExistsError`). Creating missing
      ancestors is not modelled. */
  function AfterMkDir(st: FsState, p: string): Run
  {
    if p in st.files then Run(false, st) else Run(true, st.(dirs := st.dirs + {p}))
  }

  /** Opening a path for writing and writing `c`: replaces whatever the file
      held; a directory at the path is an error (`IsADirectoryError`). */
  function AfterWrite(st: FsState, p: string, c: Content): Run
  {
    if p in st.dirs then Run(false, st) else Run(true, st.(files := st.files[p := c]))
  }

  /** Both operations keep files and directories apart, touch only their own
      path, and repeating a successful one changes nothing. */
  lemma StepsBehave(st: FsState, p: string, c: Content)
    ensures var m := AfterMkDir(st, p);
      && (Consistent(st) ==> Consistent(m.st))
      && Touches(st, m.st, {}, {p})
      && (m.ok ==> AfterMkDir(m.st, p) == Run(true, m.st))
    ensures var w := AfterWrite(st, p, c);
      && (Consistent(st) ==> Consistent(w.st))
      && Touches(st, w.st, {p}, {})
      && (w.ok ==> AfterWrite(w.st, p, c) == Run(true, w.st))
  {
    var m := AfterMkDir(st, p);
    if m.ok {
      assert m.st.dirs + {p} == m.st.dirs;
    }
    var w := AfterWrite(st, p, c);
    if w.ok {
      assert w.st.files[p := c] == w.st.files;
    }
  }

  /** A filesystem whose files and directories change in place. */
  class FileSystem {
    var files: map<string, Content>
    var dirs: set<string>

    function State(): FsState
      reads this
    {
      FsState(files, dirs)
    }

    constructor (st: FsState)
      ensures State() == st
    {
      files := st.files;
      dirs := st.dirs;
    }

    predicate Has(p: string)
      reads this
    {
      Exists(State(), p)
    }

    method MkDir(p: string) returns (ok: bool)
      modifies this
      ensures Run(ok, State()) == AfterMkDir(old(State()), p)
    {
      ok := p !in files;
      if ok {
        dirs := dirs + {p};
      }
    }

    method Write(p: string, c: Content) returns (ok: bool)
      modifies this
      ensures Run(ok, State()) == AfterWrite(old(State()), p, c)
    {
      ok := p !in dirs;
      if ok {
        files := files[p := c];
      }
    }
  }
}

=== FILE: launcher.dfy ===
/** Opening a space: making sure its directory, logs directory, role file and
    tool manifest are on disk, and building the terminal command line that
    starts the agent restricted to that manifest. */
module Launcher {
  import opened Wrappers
  import opened Text
  import opened Config
  import opened Files

  // ---------------------------------------------------------------------------
  // Materialising a space

  /** The four paths of a space that opening it touches. */
  datatype Layout = Layout(dir: string, logs: string, roleFile: string, manifest: string)

  /** No two of the paths coincide, so writing one never touches another. */
  function LayoutOf(space: Space): (l: Layout)
    ensures LayoutDistinct(l)
  {
    SpaceLayout(space);
    Layout(space.path, LogsPath(space), ClaudeMdPath(space), McpJsonPath(space))
  }

  /** The steps of `ensure_space_exists` for given file contents: create the
      space and logs directories, write the role file only when nothing is at
      its path, and always rewrite the manifest. */
  function Materialise(st: FsState, l: Layout, role: Content, manifest: Content): Run
  {
    var r1 := AfterMkDir(st, l.dir);
    if !r1.ok then r1
    else
      var r2 := AfterMkDir(r1.st, l.logs);
      if !r2.ok then r2
      else
        var r3 := if Exists(r2.st, l.roleFile) then r2 else AfterWrite(r2.st, l.roleFile, role);
        if !r3.ok then r3
        else AfterWrite(r3.st, l.manifest, manifest)
  }

  /** `ensure_space_exists`: the role file and manifest are generated from the
      space's resolved devices. */
  function EnsureSpace(st: FsState, config: AppConfig, space: Space): Run
  {
    var devices := GetDevicesForSpace(config, space);
    Materialise(st, LayoutOf(space), RoleDoc(space, devices), Json(GenerateMcpJson(devices)))
  }

  predicate LayoutDistinct(l: Layout)
  {
    && l.dir != l.logs && l.dir != l.roleFile && l.dir != l.manifest
    && l.logs != l.roleFile && l.logs != l.manifest && l.roleFile != l.manifest
  }

  lemma MaterialiseFails(st: FsState, l: Layout, role: Content, manifest: Content)
    requires LayoutDistinct(l)
    ensures Materialise(st, l, role, manifest).ok
            <==> l.dir !in st.files && l.logs !in st.files && l.manifest !in st.dirs
  {
  }

  lemma MaterialiseEffect(st: FsState, l: Layout, role: Content, manifest: Content)
    requires LayoutDistinct(l)
    ensures var r := Materialise(st, l, role, manifest);
      r.ok ==>
        && r.st.dirs == st.dirs + {l.dir, l.logs}
        && r.st.files.Keys == st.files.Keys + {l.manifest} + (if Exists(st, l.roleFile) then {} else {l.roleFile})
        && l.manifest in r.st.files && r.st.files[l.manifest] == manifest
        && (!Exists(st, l.roleFile) ==> l.roleFile in r.st.files && r.st.files[l.roleFile] == role)
        && (l.roleFile in st.files ==> l.roleFile in r.st.files && r.st.files[l.roleFile] == st.files[l.roleFile])
  {
  }

  lemma MaterialiseFrame(st: FsState, l: Layout, role: Content, manifest: Content)
    ensures var r := Materialise(st, l, role, manifest);
      && Touches(st, r.st, {l.roleFile, l.manifest}, {l.dir, l.logs})
      && (Consistent(st) ==> Consistent(r.st))
  {
    var w, m := {l.roleFile, l.manifest}, {l.dir, l.logs};
    var r1 := AfterMkDir(st, l.dir);
    StepsBehave(st, l.dir, role);
    if r1.ok {
      var r2 := AfterMkDir(r1.st, l.logs);
      StepsBehave(r1.st, l.logs, role);
      TouchesChain(st, r1.st, r2.st, {}, {l.dir}, {}, {l.logs}, w, m);
      if r2.ok {
        var r3 := if Exists(r2.st, l.roleFile) then r2 else AfterWrite(r2.st, l.roleFile, role);
        StepsBehave(r2.st, l.roleFile, role);
        TouchesChain(st, r2.st, r3.st, w, m, {l.roleFile}, {}, w, m);
        if r3.ok {
          StepsBehave(r3.st, l.manifest, manifest);
          TouchesChain(st, r3.st, AfterWrite(r3.st, l.manifest, manifest).st, w, m, {l.manifest}, {}, w, m);
        }
      }
    }
  }

  lemma MaterialiseIdempotent(st: FsState, l: Layout, role: Content, manifest: Content)
    requires LayoutDistinct(l)
    ensures var r := Materialise(st, l, role, manifest);
      r.ok ==> Materialise(r.st, l, role, manifest) == r
  {
    var r := Materialise(st, l, role, manifest);
    if r.ok {
      MaterialiseFails(st, l, role, manifest);
      MaterialiseEffect(st, l, role, manifest);
      var s := r.st;
      assert s.dirs + {l.dir} == s.dirs;
      assert s.dirs + {l.logs} == s.dirs;
      assert s.files[l.manifest := manifest] == s.files;
    }
  }

  /** The operation fails exactly when a regular file sits where one of the two
      directories goes, or a directory sits where the manifest goes. A
      directory at the role file's path counts as present and is skipped. */
  lemma EnsureSpaceFails(st: FsState, config: AppConfig, space: Space)
    ensures EnsureSpace(st, config, space).ok
            <==> space.path !in st.files && LogsPath(space) !in st.files && McpJsonPath(space) !in st.dirs
  {
    var devices := GetDevicesForSpace(config, space);
    MaterialiseFails(st, LayoutOf(space), RoleDoc(space, devices), Json(GenerateMcpJson(devices)));
  }

  /** After a successful run: both directories exist (an existing one is no
      error), the manifest holds the manifest of the space's resolved devices
      whatever it held before, the role file is written only when absent and
      otherwise left as it was, and no other file appears. */
  lemma EnsureSpaceEffect(st: FsState, config: AppConfig, space: Space)
    ensures var r := EnsureSpace(st, config, space);
      var devices := GetDevicesForSpace(config, space);
      r.ok ==>
        && r.st.dirs == st.dirs + {space.path, LogsPath(space)}
        && r.st.files.Keys == st.files.Keys + {McpJsonPath(space)}
                              + (if Exists(st, ClaudeMdPath(space)) then {} else {ClaudeMdPath(space)})
        && McpJsonPath(space) in r.st.files && r.st.files[McpJsonPath(space)] == Json(GenerateMcpJson(devices))
        && (!Exists(st, ClaudeMdPath(space)) ==> ClaudeMdPath(space) in r.st.files && r.st.files[ClaudeMdPath(space)] == RoleDoc(space, devices))
        && (ClaudeMdPath(space) in st.files ==> ClaudeMdPath(space) in r.st.files && r.st.files[ClaudeMdPath(space)] == st.files[ClaudeMdPath(space)])
  {
    var devices := GetDevicesForSpace(config, space);
    MaterialiseEffect(st, LayoutOf(space), RoleDoc(space, devices), Json(GenerateMcpJson(devices)));
  }

  /** Whether it succeeds or raises part-way, the operation creates no
      directory but the space's two, writes no file but the role file and the
      manifest, and keeps files and directories apart. */
  lemma EnsureSpaceFrame(st: FsState, config: AppConfig, space: Space)
    ensures var r := EnsureSpace(st, config, space);
      && Touches(st, r.st, {ClaudeMdPath(space), McpJsonPath(space)}, {space.path, LogsPath(space)})
      && (Consistent(st) ==> Consistent(r.st))
  {
    var devices := GetDevicesForSpace(config, space);
    MaterialiseFrame(st, LayoutOf(space), RoleDoc(space, devices), Json(GenerateMcpJson(devices)));
  }

  /** Running it again with the same configuration changes nothing: the
      directories exist, the role file is kept and the manifest is rewritten
      with the same content. */
  lemma EnsureSpaceIdempotent(st: FsState, config: AppConfig, space: Space)
    ensures var r := EnsureSpace(st, config, space);
      r.ok ==> EnsureSpace(r.st, config, space) == r
  {
    var devices := GetDevicesForSpace(config, space);
    MaterialiseIdempotent(st, LayoutOf(space), RoleDoc(space, devices), Json(GenerateMcpJson(devices)));
  }

  /** `ensure_space_exists` on a filesystem that changes in place. */
  method EnsureSpaceExists(fs: FileSystem, config: AppConfig, space: Space) returns (ok: bool)
    modifies fs
    ensures Run(ok, fs.State()) == EnsureSpace(old(fs.State()), config, space)
  {
    ok := fs.MkDir(space.path);
    if !ok {
      return;
    }
    ok := fs.MkDir(LogsPath(space));
    if !ok {
      return;
    }
    var devices := GetDevicesForSpace(config, space);
    if !fs.Has(ClaudeMdPath(space)) {
      ok := fs.Write(ClaudeMdPath(space), RoleDoc(space, devices));
      if !ok {
        return;
      }
    }
    ok := fs.Write(McpJsonPath(space), Json(GenerateMcpJson(devices)));
  }

  // ---------------------------------------------------------------------------
  // The launch command

  /** The flags that make the agent load tool servers from the given manifest
      and from nowhere else. */
  function StrictScope(manifestPath: string): string
  {
    " --strict-mcp-config --mcp-config \"" + manifestPath + "\""
  }

  /** The agent command line run inside the terminal. */
  function AgentCommand(claudeCmd: string, manifestPath: string): (cmd: string)
    ensures claudeCmd <= cmd && EndsWith(cmd, StrictScope(manifestPath))
    ensures |cmd| == |claudeCmd| + |StrictScope(manifestPath)|
  {
    PrefixAndSuffix(claudeCmd, "", StrictScope(manifestPath));
    claudeCmd + StrictScope(manifestPath)
  }

  /** The option by which a known terminal is given its working directory;
      None for the terminals that get a `cd` in their shell line instead. */
  function WorkdirOption(terminal: string): Option<string>
  {
    if terminal == "konsole" then Some("--workdir")
    else if terminal == "gnome-terminal" || terminal == "alacritty" then Some("--working-directory")
    else if terminal == "kitty" then Some("--directory")
    else None
  }

  /** The shell line of terminals without a working-directory option. */
  function CdThen(workdir: string, cmd: string): string
  {
    "cd " + workdir + " && " + cmd
  }

  /** The argument vector that opens `terminal` in `workdir` running `cmd`. */
  function TerminalArgv(terminal: string, workdir: string, cmd: string): seq<string>
  {
    if terminal == "konsole" then
      ["konsole", "--new-tab", "--workdir", workdir, "-e", "bash", "-c", cmd]
    else if terminal == "gnome-terminal" then
      ["gnome-terminal", "--working-directory", workdir, "--", "bash", "-c", cmd]
    else if terminal == "xterm" then
      ["xterm", "-e", CdThen(workdir, cmd)]
    else if terminal == "kitty" then
      ["kitty", "--directory", workdir, "bash", "-c", cmd]
    else if terminal == "alacritty" then
      ["alacritty", "--working-directory", workdir, "-e", "bash", "-c", cmd]
    else
      [terminal, "-e", CdThen(workdir, cmd)]
  }

  /** Every argument vector starts with the terminal's own name. A terminal
      with a working-directory option gets that option followed by the
      directory as two separate arguments and ends with `bash -c <cmd>`; any
      other terminal, known or not, gets `-e` and a single `cd` shell line.
      Either way the last argument ends with the command. */
  lemma TerminalArgvShape(terminal: string, workdir: string, cmd: string)
    ensures var argv := TerminalArgv(terminal, workdir, cmd);
      && |argv| >= 3 && argv[0] == terminal
      && EndsWith(argv[|argv| - 1], cmd)
      && (WorkdirOption(terminal).Some? ==>
            && argv[|argv| - 3..] == ["bash", "-c", cmd]
            && exists i :: 0 < i < |argv| - 4 && argv[i] == WorkdirOption(terminal).value && argv[i + 1] == workdir)
      && (WorkdirOption(terminal).None? ==> argv == [terminal, "-e", CdThen(workdir, cmd)])
  {
    var argv := TerminalArgv(terminal, workdir, cmd);
    if WorkdirOption(terminal).Some? {
      var i := if terminal == "konsole" then 2 else 1;
      assert argv[i] == WorkdirOption(terminal).value && argv[i + 1] == workdir;
    } else {
      PrefixAndSuffix("cd " + workdir + " && ", "", cmd);
    }
  }

  /** The argument vector `launch_claude_in_terminal` hands to the process
      spawner for a space. */
  function LaunchArgv(config: AppConfig, space: Space): seq<string>
  {
    TerminalArgv(config.terminalEmulator, space.path, AgentCommand(config.claudeCmd, McpJsonPath(space)))
  }

  /** Whatever the terminal, the launched command string ends with the
      strict-scope flags naming the space's own manifest. The string is
      parsed again by a shell, which this model does not follow. */
  lemma LaunchIsStrictlyScoped(config: AppConfig, space: Space)
    ensures var argv := LaunchArgv(config, space);
      && |argv| >= 3 && argv[0] == config.terminalEmulator
      && EndsWith(argv[|argv| - 1], StrictScope(McpJsonPath(space)))
  {
    var cmd := AgentCommand(config.claudeCmd, McpJsonPath(space));
    TerminalArgvShape(config.terminalEmulator, space.path, cmd);
    var argv := LaunchArgv(config, space);
    EndsWithTrans(argv[|argv| - 1], cmd, StrictScope(McpJsonPath(space)));
  }

  /** `launch_claude_in_terminal` up to the process spawn: materialise the
      space, then build the argument vector. None when materialising raised.
      On success the manifest the command names holds exactly the space's
      resolved devices. */
  method LaunchClaudeInTerminal(fs: FileSystem, config: AppConfig, space: Space) returns (argv: Option<seq<string>>)
    modifies fs
    ensures fs.State() == EnsureSpace(old(fs.State()), config, space).st
    ensures argv.Some? <==> EnsureSpace(old(fs.State()), config, space).ok
    ensures argv.Some? ==>
              && argv.value == LaunchArgv(config, space)
              && McpJsonPath(space) in fs.files
              && fs.files[McpJsonPath(space)] == Json(GenerateMcpJson(GetDevicesForSpace(config, space)))
  {
    ghost var st := fs.State();
    var ok := EnsureSpaceExists(fs, config, space);
    if !ok {
      return None;
    }
    EnsureSpaceEffect(st, config, space);
    argv := Some(LaunchArgv(config, space));
  }
}

=== FILE: server.dfy ===
/** The example tool server that runs on each device: the four tools it
    declares and how a call renders each outcome of the shell, the file
    system or a lookup as exactly one text block. The outcomes themselves
    (what a command prints, whether a file can be read) are inputs. */
module Server {
  import opened Wrappers
  import opened Text

  /** An argument value as it arrives in a call. */
  datatype Value = Str(s: string) | Int(n: int)

  /** How an f-string shows a value. */
  function Render(v: Value): string
  {
    match v
    case Str(s) => s
    case Int(n) => IntToString(n)
  }

  /** What running a shell command produced. */
  datatype ProcessOutcome =
    | Completed(stdout: string, stderr: string, returncode: int)
    | TimedOut
    | Raised(message: string)

  /** What opening and reading a file produced. */
  datatype ReadOutcome = ReadContent(content: string) | NotFound | PermissionDenied | ReadFailed(message: string)

  /** What opening and writing a file produced. */
  datatype WriteOutcome = Written | WriteDenied | WriteFailed(message: string)

  /** The machine the server runs on: its name and what its shell and file
      system answer, given the command and timeout, or the path and content. */
  datatype Host = Host(
    hostname: string,
    run: (Value, Value) -> ProcessOutcome,
    read: Value -> ReadOutcome,
    write: (Value, Value) -> WriteOutcome)

  // ---------------------------------------------------------------------------
  // Declared tools

  /** A declared tool: its name, description, input properties and the
      properties a call must supply. */
  datatype Tool = Tool(name: string, description: string, properties: seq<string>, required: seq<string>)

  /** The timeout `run_command` uses when the call gives none. */
  const DefaultTimeout: int := 60

  /** `list_tools`. */
  function ListTools(hostname: string): seq<Tool>
  {
    [ Tool("run_command", "Execute a shell command on " + hostname, ["command", "timeout"], ["command"]),
      Tool("read_file", "Read a file from " + hostname, ["path"], ["path"]),
      Tool("write_file", "Write content to a file on " + hostname, ["path", "content"], ["path", "content"]),
      Tool("get_system_info", "Get system information from " + hostname, [], []) ]
  }

  /** The fields a call of the tool `name` must supply; None for a name no
      tool has. */
  function RequiredFields(name: string): Option<seq<string>>
  {
    if name == "run_command" then Some(["command"])
    else if name == "read_file" then Some(["path"])
    else if name == "write_file" then Some(["path", "content"])
    else if name == "get_system_info" then Some([])
    else None
  }

  /** The declared tools are exactly four, with distinct names; each requires
      only properties it declares, and the fields `call_tool` looks up for a
      name are exactly those its declaration requires. */
  lemma ToolsDeclared(hostname: string)
    ensures var tools := ListTools(hostname);
      && |tools| == 4
      && (forall i, j :: 0 <= i < j < |tools| ==> tools[i].name != tools[j].name)
      && (forall i :: 0 <= i < |tools| ==> forall k :: k in tools[i].required ==> k in tools[i].properties)
      && (forall i :: 0 <= i < |tools| ==> RequiredFields(tools[i].name) == Some(tools[i].required))
      && (forall name :: RequiredFields(name).Some? ==> exists i :: 0 <= i < |tools| && tools[i].name == name)
  {
    var tools := ListTools(hostname);
    forall name | RequiredFields(name).Some?
      ensures exists i :: 0 <= i < |tools| && tools[i].name == name
    {
      if name == "run_command" {
        assert tools[0].name == name;
      } else if name == "read_file" {
        assert tools[1].name == name;
      } else if name == "write_file" {
        assert tools[2].name == name;
      } else {
        assert tools[3].name == name;
      }
    }
  }

  // ---------------------------------------------------------------------------
  // run_command

  /** The stderr block: present only when stderr is non-empty. */
  function StderrBlock(stderr: string): string
  {
    if stderr != "" then "\n[stderr]\n" + stderr else ""
  }

  /** The exit-status suffix of a non-zero status. */
  function ExitSuffix(returncode: int): string
  {
    "\n" + ExitLine(returncode)
  }

  /** The text built from a completed command: stdout, then the stderr block
      when stderr is non-empty, then the exit-status suffix when the status
      is non-zero. */
  function CompletedOutput(stdout: string, stderr: string, returncode: int): (text: string)
    ensures stdout <= text
    ensures stderr != "" ==> stdout + "\n[stderr]\n" + stderr <= text
    ensures returncode != 0 ==> EndsWith(text, ExitSuffix(returncode))
    ensures stderr == "" && returncode == 0 ==> text == stdout
    ensures stderr == "" && returncode != 0 ==> text == stdout + ExitSuffix(returncode)
    ensures |text| == |stdout| + |StderrBlock(stderr)| + if returncode != 0 then |ExitSuffix(returncode)| else 0
  {
    var block := StderrBlock(stderr);
    var suffix := if returncode != 0 then ExitSuffix(returncode) else "";
    ThreeParts(stdout, block, suffix);
    stdout + block + suffix
  }

  /** A text made of three parts starts with the first two, ends with the
      last, and is as long as the three together. */
  lemma ThreeParts(a: string, b: string, c: string)
    ensures a <= a + b + c && a + b <= a + b + c && EndsWith(a + b + c, c)
    ensures |a + b + c| == |a| + |b| + |c|
    ensures b == [] ==> a + b + c == a + c
    ensures c == [] ==> a + b + c == a + b
  {
    PrefixAndSuffix(a, b, c);
    if b == [] {
      assert a + b == a;
    }
    if c == [] {
      assert a + b + c == a + b;
    }
  }

  /** The text of a `run_command` call. */
  function RunCommandText(outcome: ProcessOutcome, timeout: Value): string
  {
    match outcome
    case Completed(stdout, stderr, returncode) =>
      var output := CompletedOutput(stdout, stderr, returncode);
      if output == "" then "(no output)" else output
    case TimedOut => "Command timed out after " + Render(timeout) + " seconds"
    case Raised(message) => "Error executing command: " + message
  }

  /** The exit status a reader finds on the last line of a command's text,
      when that line reads `[exit code: N]`. */
  function ReportedExitCode(text: string): Option<int>
  {
    match LastIndexOf(text, '\n')
    case None => None
    case Some(i) => ExitStatusOf(text[i + 1..])
  }

  /** The status a line of the form `[exit code: N]` reports. */
  function ExitStatusOf(line: string): Option<int>
  {
    if |line| >= 13 && line[..12] == "[exit code: " && line[|line| - 1] == ']'
    then ParseInt(line[12..|line| - 1])
    else None
  }

  /** A non-zero exit status is always reported, and reads back as itself,
      whatever the command printed. */
  lemma ExitCodeReported(stdout: string, stderr: string, returncode: int, timeout: Value)
    requires returncode != 0
    ensures ReportedExitCode(RunCommandText(Completed(stdout, stderr, returncode), timeout)) == Some(returncode)
  {
    var front := stdout + StderrBlock(stderr);
    assert RunCommandText(Completed(stdout, stderr, returncode), timeout) == front + ExitSuffix(returncode);
    ExitSuffixParses(front, returncode);
  }

  lemma ExitSuffixParses(front: string, returncode: int)
    ensures ReportedExitCode(front + ExitSuffix(returncode)) == Some(returncode)
  {
    var line := ExitLine(returncode);
    ExitLineShape(returncode);
    LastLineAfter(front, line);
  }

  /** The last line of the exit-status suffix. */
  function ExitLine(returncode: int): string
  {
    "[exit code: " + IntToString(returncode) + "]"
  }

  /** The exit line holds no line break and reads back as the status. */
  lemma ExitLineShape(returncode: int)
    ensures '\n' !in ExitLine(returncode)
    ensures ExitStatusOf(ExitLine(returncode)) == Some(returncode)
  {
    var n := IntToString(returncode);
    var line := ExitLine(returncode);
    IntToStringHasNo(returncode, '\n');
    NoBreakIn("[exit code: ", n, "]");
    assert line[..12] == "[exit code: ";
    assert line[12..|line| - 1] == n;
    IntToStringRoundTrip(returncode);
  }

  /** The `(no output)` marker stands for a silent, successful command: it
      appears exactly when stdout and stderr are empty and the status is 0,
      or when stdout is that very text and nothing else was added. */
  lemma NoOutputMarker(stdout: string, stderr: string, returncode: int, timeout: Value)
    ensures RunCommandText(Completed(stdout, stderr, returncode), timeout) == "(no output)"
            <==> stderr == "" && returncode == 0 && (stdout == "" || stdout == "(no output)")
  {
    if stderr != "" || returncode != 0 {
      OutputBreaksAfterStdout(stdout, stderr, returncode);
    }
  }

  /** Anything added after stdout starts with a line break. */
  lemma OutputBreaksAfterStdout(stdout: string, stderr: string, returncode: int)
    requires stderr != "" || returncode != 0
    ensures var output := CompletedOutput(stdout, stderr, returncode);
      |stdout| < |output| && output[|stdout|] == '\n'
  {
    var front := stdout + StderrBlock(stderr);
    var output := front + if returncode != 0 then ExitSuffix(returncode) else "";
    if stderr != "" {
      assert output[|stdout|] == front[|stdout|];
    } else {
      assert front == stdout;
    }
  }

  // ---------------------------------------------------------------------------
  // read_file and write_file

  /** The text of a `read_file` call: the content itself, or a message naming
      the failure. */
  function ReadFileText(path: Value, outcome: ReadOutcome): string
  {
    match outcome
    case ReadContent(content) => content
    case NotFound => "File not found: " + Render(path)
    case PermissionDenied => "Permission denied: " + Render(path)
    case ReadFailed(message) => "Error reading file: " + message
  }

  /** How a reader tells the failures of `read_file` apart by their prefix. */
  function ReadFailureOf(text: string): Option<ReadOutcome>
  {
    if "File not found: " <= text then Some(NotFound)
    else if "Permission denied: " <= text then Some(PermissionDenied)
    else if "Error reading file: " <= text then Some(ReadFailed(text[20..]))
    else None
  }

  /** The three failures of `read_file` give pairwise different texts, and each
      reads back as the failure it reports. */
  lemma ReadFailuresDistinct(path: Value, outcome: ReadOutcome)
    requires !outcome.ReadContent?
    ensures ReadFailureOf(ReadFileText(path, outcome)) == Some(outcome)
  {
    var text := ReadFileText(path, outcome);
    match outcome
    case NotFound =>
    case PermissionDenied =>
      assert text[0] == 'P';
    case ReadFailed(message) =>
      assert text[0] == 'E';
      assert text[20..] == message;
  }

  /** A successful read returns the file's content unchanged, so a file that
      holds a failure message reads exactly like that failure: the reply
      alone cannot tell them apart. */
  lemma ReadContentAmbiguous(path: Value, outcome: ReadOutcome)
    requires !outcome.ReadContent?
    ensures var forged := ReadContent(ReadFileText(path, outcome));
      && forged != outcome
      && ReadFileText(path, forged) == ReadFileText(path, outcome)
      && ReadFailureOf(ReadFileText(path, forged)) == Some(outcome)
  {
    ReadFailuresDistinct(path, outcome);
  }

  /** The text of a `write_file` call. */
  function WriteFileText(path: Value, outcome: WriteOutcome): string
  {
    match outcome
    case Written => "Successfully wrote to " + Render(path)
    case WriteDenied => "Permission denied: " + Render(path)
    case WriteFailed(message) => "Error writing file: " + message
  }

  /** How a reader tells the outcomes of `write_file` apart by their prefix. */
  function WriteOutcomeOf(text: string): Option<WriteOutcome>
  {
    if "Successfully wrote to " <= text then Some(Written)
    else if "Permission denied: " <= text then Some(WriteDenied)
    else if "Error writing file: " <= text then Some(WriteFailed(text[20..]))
    else None
  }

  /** Every outcome of `write_file` reads back from its text. */
  lemma WriteOutcomesDistinct(path: Value, outcome: WriteOutcome)
    ensures WriteOutcomeOf(WriteFileText(path, outcome)) == Some(outcome)
  {
    var text := WriteFileText(path, outcome);
    match outcome
    case Written =>
    case WriteDenied =>
      assert text[0] == 'P';
    case WriteFailed(message) =>
      assert text[0] == 'E';
      assert text[20..] == message;
  }

  // ---------------------------------------------------------------------------
  // get_system_info

  /** The labelled shell commands of `get_system_info`, in order. */
  const InfoCommands: seq<(string, string)> := [
    ("hostname", "hostname"),
    ("uptime", "uptime"),
    ("memory", "free -h | head -2"),
    ("disk", "df -h / | tail -1"),
    ("cpu", "cat /proc/cpuinfo | grep 'model name' | head -1"),
    ("os", "cat /etc/os-release | grep PRETTY_NAME | cut -d= -f2")]

  /** The timeout, in seconds, of each information command. */
  const InfoTimeout: int := 5

  /** The value shown for one command: its stripped stdout whatever its exit
      status, or `(unavailable)` when running it raised. */
  function InfoValue(outcome: ProcessOutcome): string
  {
    match outcome
    case Completed(stdout, _, _) => Strip(stdout)
    case _ => "(unavailable)"
  }

  function InfoLine(host: Host, i: nat): string
    requires i < |InfoCommands|
  {
    InfoCommands[i].0 + ": " + InfoValue(host.run(Str(InfoCommands[i].1), Int(InfoTimeout)))
  }

  /** The lines of the system information block. */
  function InfoLines(host: Host): seq<string>
  {
    seq(|InfoCommands|, i requires 0 <= i < |InfoCommands| => InfoLine(host, i))
  }

  /** When no value spans several lines, the block reads back as one
      `title: value` line per entry of the command table (hostname, uptime,
      memory, disk, cpu, os), in that order, each value being the stripped
      stdout of its command or `(unavailable)` when the command raised. */
  lemma SystemInfoBlock(host: Host)
    requires forall i :: 0 <= i < |InfoCommands| ==>
               '\n' !in InfoValue(host.run(Str(InfoCommands[i].1), Int(InfoTimeout)))
    ensures var lines := Split(Join(InfoLines(host), "\n"), '\n');
      && |lines| == |InfoCommands| == 6
      && forall i :: 0 <= i < |lines| ==>
           lines[i] == InfoCommands[i].0 + ": " + InfoValue(host.run(Str(InfoCommands[i].1), Int(InfoTimeout)))
  {
    InfoLinesSplit(host);
  }

  lemma InfoLinesSplit(host: Host)
    requires forall i :: 0 <= i < |InfoCommands| ==>
               '\n' !in InfoValue(host.run(Str(InfoCommands[i].1), Int(InfoTimeout)))
    ensures Split(Join(InfoLines(host), "\n"), '\n') == InfoLines(host)
  {
    var lines := InfoLines(host);
    forall i | 0 <= i < |lines| ensures '\n' !in lines[i] {
      InfoLineSingle(host, i);
    }
    SplitJoin(lines, '\n');
  }

  lemma InfoLineSingle(host: Host, i: nat)
    requires i < |InfoCommands|
    requires '\n' !in InfoValue(host.run(Str(InfoCommands[i].1), Int(InfoTimeout)))
    ensures '\n' !in InfoLine(host, i)
  {
    var title := InfoCommands[i].0;
    var value := InfoValue(host.run(Str(InfoCommands[i].1), Int(InfoTimeout)));
    var line := InfoLine(host, i);
    assert '\n' !in title;
    forall k | 0 <= k < |line| ensures line[k] != '\n' {
      if k >= |title| + 2 {
        assert line[k] == value[k - |title| - 2];
      } else if k < |title| {
        assert line[k] == title[k];
      }
    }
  }

  /** The `get_system_info` loop: one line per command, joined by newlines. */
  method GetSystemInfo(host: Host) returns (text: string)
    ensures text == Join(InfoLines(host), "\n")
  {
    var results: seq<string> := [];
    var i := 0;
    while i < |InfoCommands|
      invariant 0 <= i <= |InfoCommands|
      invariant results == InfoLines(host)[..i]
    {
      var (title, cmd) := InfoCommands[i];
      var value := InfoValue(host.run(Str(cmd), Int(InfoTimeout)));
      results := results + [title + ": " + value];
      i := i + 1;
    }
    assert results == InfoLines(host);
    text := Join(results, "\n");
  }

  // ---------------------------------------------------------------------------
  // call_tool

  /** A call that raises instead of answering: a required argument is missing
      from the call and the lookup of it fails. */
  datatype CallError = MissingArgument(key: string)

  /** The timeout of a `run_command` call. */
  function TimeoutOf(args: map<string, Value>): Value
  {
    if "timeout" in args then args["timeout"] else Int(DefaultTimeout)
  }

  /** `call_tool`: the text block answering a call, or the error raised when
      a required argument is missing. */
  method CallTool(name: string, args: map<string, Value>, host: Host) returns (reply: Result<seq<string>, CallError>)
    ensures reply.Err? <==> RequiredFields(name).Some? && exists k :: k in RequiredFields(name).value && k !in args
    ensures reply.Ok? ==> |reply.value| == 1
    ensures RequiredFields(name).None? ==> reply == Ok(["Unknown tool: " + name])
    ensures name == "run_command" && "command" in args ==>
              reply == Ok([RunCommandText(host.run(args["command"], TimeoutOf(args)), TimeoutOf(args))])
    ensures name == "read_file" && "path" in args ==>
              reply == Ok([ReadFileText(args["path"], host.read(args["path"]))])
    ensures name == "write_file" && "path" in args && "content" in args ==>
              reply == Ok([WriteFileText(args["path"], host.write(args["path"], args["content"]))])
    ensures name == "get_system_info" ==> reply == Ok([Join(InfoLines(host), "\n")])
  {
    ToolsDeclared(host.hostname);
    if name == "run_command" {
      if "command" !in args {
        return Err(MissingArgument("command"));
      }
      var timeout := TimeoutOf(args);
      return Ok([RunCommandText(host.run(args["command"], timeout), timeout)]);
    } else if name == "read_file" {
      if "path" !in args {
        return Err(MissingArgument("path"));
      }
      return Ok([ReadFileText(args["path"], host.read(args["path"]))]);
    } else if name == "write_file" {
      if "path" !in args {
        return Err(MissingArgument("path"));
      }
      if "content" !in args {
        return Err(MissingArgument("content"));
      }
      return Ok([WriteFileText(args["path"], host.write(args["path"], args["content"]))]);
    } else if name == "get_system_info" {
      var text := GetSystemInfo(host);
      return Ok([text]);
    }
    return Ok(["Unknown tool: " + name]);
  }
}

=== FILE: setup.dfy ===
/** First-time setup of spaces: for each configured space, create its
    directories and write the role file, the tool manifest and a logs README,
    each only when absent unless a forced run asks to regenerate them, and
    report which spaces had anything written. */
module Setup {
  import opened Text
  import opened Config
  import opened Files

  /** The body of the logs README after its title line. */
  const LogsReadmeBody: string :=
    "\nThis folder contains logs and documentation generated during Claude sessions.\n\n"
    + "## Recommended Structure\n\n"
    + "- `session-YYYY-MM-DD.md` - Daily session notes\n"
    + "- `changes.md` - Configuration and system changes\n"
    + "- `issues.md` - Problems encountered and resolutions\n"

  /** The logs README of a space. */
  function LogsReadme(space: Space): string
  {
    "# " + space.name + " Logs" + "\n" + LogsReadmeBody
  }

  /** The logs README begins with the line `# <space name> Logs`, whatever the
      name holds. */
  lemma LogsReadmeStartsWithTitle(space: Space)
    ensures "# " + space.name + " Logs" + "\n" <= LogsReadme(space)
  {
    var title := "# " + space.name + " Logs";
    assert LogsReadme(space) == title + "\n" + LogsReadmeBody;
    assert (title + "\n" + LogsReadmeBody)[..|title| + 1] == title + "\n";
  }

  /** The first line of the logs README is `# <space name> Logs`. */
  lemma LogsReadmeTitle(space: Space)
    requires '\n' !in space.name
    ensures FirstLine(LogsReadme(space)) == "# " + space.name + " Logs"
  {
    var title := "# " + space.name + " Logs";
    assert forall i :: 0 <= i < |title| ==> title[i] != '\n' by {
      forall i | 0 <= i < |title| ensures title[i] != '\n' {
        if 2 <= i < 2 + |space.name| {
          assert title[i] == space.name[i - 2];
        }
      }
    }
    LogsReadmeStartsWithTitle(space);
    SplitFirstLine(LogsReadme(space), title, '\n');
  }

  // ---------------------------------------------------------------------------
  // One space

  /** The five paths of a space that setup touches. */
  datatype Paths = Paths(dir: string, logs: string, roleFile: string, manifest: string, readme: string)

  /** No two of the paths coincide. */
  predicate PathsDistinct(l: Paths)
  {
    && l.dir != l.logs && l.dir != l.roleFile && l.dir != l.manifest && l.dir != l.readme
    && l.logs != l.roleFile && l.logs != l.manifest && l.logs != l.readme
    && l.roleFile != l.manifest && l.roleFile != l.readme && l.manifest != l.readme
  }

  function PathsOf(space: Space): (l: Paths)
    ensures PathsDistinct(l)
  {
    SpaceLayout(space);
    var n := |space.path|;
    var l := Paths(space.path, LogsPath(space), ClaudeMdPath(space), McpJsonPath(space), LogsReadmePath(space));
    assert l.readme[n + 1] == 'l' && l.roleFile[n + 1] == 'C' && l.manifest[n + 1] == '.';
    assert |l.readme| > |l.logs|;
    l
  }

  /** The result of `initialize_space`: `ok` is false when it raised, and
      `created` is its return value. */
  datatype Outcome = Outcome(ok: bool, created: bool, st: FsState)

  /** One guarded write: done when forced or when nothing is at the path. */
  function WriteUnlessPresent(st: FsState, p: string, c: Content, force: bool): Outcome
  {
    if force || !Exists(st, p) then
      var r := AfterWrite(st, p, c);
      Outcome(r.ok, r.ok, r.st)
    else Outcome(true, false, st)
  }

  /** The steps of `initialize_space` for given file contents. */
  function InitSteps(st: FsState, l: Paths, role: Content, manifest: Content, readme: Content, force: bool): Outcome
  {
    var r1 := AfterMkDir(st, l.dir);
    if !r1.ok then Outcome(false, false, r1.st)
    else
      var r2 := AfterMkDir(r1.st, l.logs);
      if !r2.ok then Outcome(false, false, r2.st)
      else
        var w1 := WriteUnlessPresent(r2.st, l.roleFile, role, force);
        if !w1.ok then w1
        else
          var w2 := WriteUnlessPresent(w1.st, l.manifest, manifest, force);
          if !w2.ok then w2
          else
            var w3 := WriteUnlessPresent(w2.st, l.readme, readme, force);
            if !w3.ok then w3
            else Outcome(true, w1.created || w2.created || w3.created, w3.st)
  }

  /** `initialize_space`: the role file, manifest and logs README of the
      space, generated from its resolved devices. */
  function InitSpace(st: FsState, config: AppConfig, space: Space, force: bool): Outcome
  {
    var devices := GetDevicesForSpace(config, space);
    InitSteps(st, PathsOf(space), RoleDoc(space, devices), Json(GenerateMcpJson(devices)),
              LogsDoc(space), force)
  }

  /** A guarded write keeps what is there unless forced, and writes `c` when
      forced or when the path is free; a forced write fails on a directory. */
  lemma WriteUnlessPresentEffect(st: FsState, p: string, c: Content, force: bool)
    ensures var w := WriteUnlessPresent(st, p, c, force);
      && (w.ok <==> !(force && p in st.dirs))
      && (w.ok ==> (w.created <==> force || !Exists(st, p)))
      && (w.ok && w.created ==> w.st == st.(files := st.files[p := c]))
      && (!w.created ==> w.st == st)
  {
  }

  lemma InitStepsFails(st: FsState, l: Paths, role: Content, manifest: Content, readme: Content, force: bool)
    requires PathsDistinct(l)
    ensures InitSteps(st, l, role, manifest, readme, force).ok
            <==> && l.dir !in st.files && l.logs !in st.files
                 && !(force && (l.roleFile in st.dirs || l.manifest in st.dirs || l.readme in st.dirs))
  {
    var r1 := AfterMkDir(st, l.dir);
    if r1.ok {
      var r2 := AfterMkDir(r1.st, l.logs);
      if r2.ok {
        var w1 := WriteUnlessPresent(r2.st, l.roleFile, role, force);
        WriteUnlessPresentEffect(r2.st, l.roleFile, role, force);
        if w1.ok {
          var w2 := WriteUnlessPresent(w1.st, l.manifest, manifest, force);
          WriteUnlessPresentEffect(w1.st, l.manifest, manifest, force);
          if w2.ok {
            WriteUnlessPresentEffect(w2.st, l.readme, readme, force);
          }
        }
      }
    }
  }

  /** What a successful run leaves behind, file by file. */
  lemma InitStepsEffect(st: FsState, l: Paths, role: Content, manifest: Content, readme: Content, force: bool)
    requires PathsDistinct(l)
    ensures var r := InitSteps(st, l, role, manifest, readme, force);
      r.ok ==>
        && r.st.dirs == st.dirs + {l.dir, l.logs}
        && (r.created <==> force || !Exists(st, l.roleFile) || !Exists(st, l.manifest) || !Exists(st, l.readme))
        && (force || !Exists(st, l.roleFile) ==> l.roleFile in r.st.files && r.st.files[l.roleFile] == role)
        && (force || !Exists(st, l.manifest) ==> l.manifest in r.st.files && r.st.files[l.manifest] == manifest)
        && (force || !Exists(st, l.readme) ==> l.readme in r.st.files && r.st.files[l.readme] == readme)
  {
    var r1 := AfterMkDir(st, l.dir);
    if r1.ok {
      var r2 := AfterMkDir(r1.st, l.logs);
      if r2.ok {
        var w1 := WriteUnlessPresent(r2.st, l.roleFile, role, force);
        WriteUnlessPresentEffect(r2.st, l.roleFile, role, force);
        if w1.ok {
          var w2 := WriteUnlessPresent(w1.st, l.manifest, manifest, force);
          WriteUnlessPresentEffect(w1.st, l.manifest, manifest, force);
          if w2.ok {
            WriteUnlessPresentEffect(w2.st, l.readme, readme, force);
          }
        }
      }
    }
  }

  /** Whether it succeeds or raises part-way, only the space's two directories
      and three files are touched, an existing file is left as it was unless
      the run is forced, and files and directories stay apart. */
  lemma InitStepsFrame(st: FsState, l: Paths, role: Content, manifest: Content, readme: Content, force: bool)
    ensures var r := InitSteps(st, l, role, manifest, readme, force);
      var written := if force then {l.roleFile, l.manifest, l.readme}
                     else {l.roleFile, l.manifest, l.readme} - st.files.Keys;
      && Touches(st, r.st, written, {l.dir, l.logs})
      && (Consistent(st) ==> Consistent(r.st))
  {
    var written := if force then {l.roleFile, l.manifest, l.readme} else {l.roleFile, l.manifest, l.readme} - st.files.Keys;
    var m := {l.dir, l.logs};
    var r1 := AfterMkDir(st, l.dir);
    StepsBehave(st, l.dir, role);
    if r1.ok {
      var r2 := AfterMkDir(r1.st, l.logs);
      StepsBehave(r1.st, l.logs, role);
      TouchesChain(st, r1.st, r2.st, {}, {l.dir}, {}, {l.logs}, written, m);
      var w1 := WriteUnlessPresent(r2.st, l.roleFile, role, force);
      GuardedStep(st, r2.st, l.roleFile, role, force, written, m);
      if w1.ok {
        var w2 := WriteUnlessPresent(w1.st, l.manifest, manifest, force);
        GuardedStep(st, w1.st, l.manifest, manifest, force, written, m);
        if w2.ok {
          GuardedStep(st, w2.st, l.readme, readme, force, written, m);
        }
      }
    }
  }

  /** A guarded write after steps that stayed within the bounds stays within
      them, when its path may be written under the run's rule. */
  lemma GuardedStep(st: FsState, s: FsState, p: string, c: Content, force: bool,
                    written: set<string>, made: set<string>)
    requires Touches(st, s, written, made)
    requires force ==> p in written
    requires !force && p !in st.files ==> p in written
    ensures Touches(st, WriteUnlessPresent(s, p, c, force).st, written, made)
    ensures Consistent(s) ==> Consistent(WriteUnlessPresent(s, p, c, force).st)
  {
    StepsBehave(s, p, c);
    var w := WriteUnlessPresent(s, p, c, force);
    if w.created {
      TouchesChain(st, s, w.st, written, made, {p}, {}, written, made);
    }
  }

  /** Everything a space needs is present: both directories, and something at
      each of the three file paths. */
  predicate Materialised(st: FsState, l: Paths)
  {
    && l.dir in st.dirs && l.logs in st.dirs
    && Exists(st, l.roleFile) && Exists(st, l.manifest) && Exists(st, l.readme)
  }

  /** An unforced run over a space that is already present writes nothing,
      reports false and leaves the filesystem as it was. */
  lemma InitStepsNothingToDo(st: FsState, l: Paths, role: Content, manifest: Content, readme: Content)
    requires Consistent(st) && Materialised(st, l)
    ensures InitSteps(st, l, role, manifest, readme, false) == Outcome(true, false, st)
  {
    assert st.dirs + {l.dir} == st.dirs;
    assert st.dirs + {l.logs} == st.dirs;
  }

  /** A successful run leaves the space present. */
  lemma InitStepsMaterialises(st: FsState, l: Paths, role: Content, manifest: Content, readme: Content, force: bool)
    requires PathsDistinct(l)
    ensures var r := InitSteps(st, l, role, manifest, readme, force);
      r.ok ==> Materialised(r.st, l)
  {
    InitStepsEffect(st, l, role, manifest, readme, force);
    InitStepsFrame(st, l, role, manifest, readme, force);
  }

  /** The run fails exactly when a regular file is in the way of one of the
      two directories, or a forced write meets a directory. */
  lemma InitSpaceFails(st: FsState, config: AppConfig, space: Space, force: bool)
    ensures var l := PathsOf(space);
      InitSpace(st, config, space, force).ok
      <==> && space.path !in st.files && LogsPath(space) !in st.files
           && !(force && (l.roleFile in st.dirs || l.manifest in st.dirs || l.readme in st.dirs))
  {
    var devices := GetDevicesForSpace(config, space);
    InitStepsFails(st, PathsOf(space), RoleDoc(space, devices), Json(GenerateMcpJson(devices)),
                   LogsDoc(space), force);
  }

  /** Without `force`, a file is written only when nothing is at its path;
      with `force`, all three files are written with fresh contents. The run
      reports true exactly when it wrote something. */
  lemma InitSpaceEffect(st: FsState, config: AppConfig, space: Space, force: bool)
    ensures var r := InitSpace(st, config, space, force);
      var devices := GetDevicesForSpace(config, space);
      var l := PathsOf(space);
      r.ok ==>
        && r.st.dirs == st.dirs + {space.path, LogsPath(space)}
        && (r.created <==> force || !Exists(st, l.roleFile) || !Exists(st, l.manifest) || !Exists(st, l.readme))
        && (force || !Exists(st, l.roleFile) ==> l.roleFile in r.st.files && r.st.files[l.roleFile] == RoleDoc(space, devices))
        && (force || !Exists(st, l.manifest) ==> l.manifest in r.st.files && r.st.files[l.manifest] == Json(GenerateMcpJson(devices)))
        && (force || !Exists(st, l.readme) ==> l.readme in r.st.files && r.st.files[l.readme] == LogsDoc(space))
  {
    var devices := GetDevicesForSpace(config, space);
    var l := PathsOf(space);
    var role, manifest, readme := RoleDoc(space, devices), Json(GenerateMcpJson(devices)), LogsDoc(space);
    assert InitSpace(st, config, space, force) == InitSteps(st, l, role, manifest, readme, force);
    InitStepsEffect(st, l, role, manifest, readme, force);
  }

  /** Only the space's directories and files are touched, and without
      `force` an existing file keeps its contents. */
  lemma InitSpaceFrame(st: FsState, config: AppConfig, space: Space, force: bool)
    ensures var r := InitSpace(st, config, space, force);
      var l := PathsOf(space);
      var written := if force then {l.roleFile, l.manifest, l.readme}
                     else {l.roleFile, l.manifest, l.readme} - st.files.Keys;
      && Touches(st, r.st, written, {space.path, LogsPath(space)})
      && (Consistent(st) ==> Consistent(r.st))
  {
    var devices := GetDevicesForSpace(config, space);
    InitStepsFrame(st, PathsOf(space), RoleDoc(space, devices), Json(GenerateMcpJson(devices)),
                   LogsDoc(space), force);
  }

  /** Running setup on a space a second time without `force` reports false
      and leaves every file as it was. */
  lemma InitSpaceTwice(st: FsState, config: AppConfig, space: Space, force: bool)
    requires Consistent(st)
    ensures var r := InitSpace(st, config, space, force);
      r.ok ==> InitSpace(r.st, config, space, false) == Outcome(true, false, r.st)
  {
    var devices := GetDevicesForSpace(config, space);
    var l := PathsOf(space);
    var role, manifest, readme := RoleDoc(space, devices), Json(GenerateMcpJson(devices)), LogsDoc(space);
    var r := InitSteps(st, l, role, manifest, readme, force);
    if r.ok {
      InitStepsMaterialises(st, l, role, manifest, readme, force);
      InitStepsFrame(st, l, role, manifest, readme, force);
      InitStepsNothingToDo(r.st, l, role, manifest, readme);
    }
  }

  /** `initialize_space` on a filesystem that changes in place. */
  method InitializeSpace(fs: FileSystem, config: AppConfig, space: Space, force: bool) returns (ok: bool, created: bool)
    modifies fs
    ensures Outcome(ok, created, fs.State()) == InitSpace(old(fs.State()), config, space, force)
  {
    created := false;
    var devices := GetDevicesForSpace(config, space);
    ok := fs.MkDir(space.path);
    if !ok {
      return;
    }
    ok := fs.MkDir(LogsPath(space));
    if !ok {
      return;
    }
    if force || !fs.Has(ClaudeMdPath(space)) {
      ok := fs.Write(ClaudeMdPath(space), RoleDoc(space, devices));
      if !ok {
        return;
      }
      created := true;
    }
    if force || !fs.Has(McpJsonPath(space)) {
      ok := fs.Write(McpJsonPath(space), Json(GenerateMcpJson(devices)));
      if !ok {
        created := false;
        return;
      }
      created := true;
    }
    var readme := LogsReadmePath(space);
    if force || !fs.Has(readme) {
      ok := fs.Write(readme, LogsDoc(space));
      if !ok {
        created := false;
        return;
      }
      created := true;
    }
  }

  // ---------------------------------------------------------------------------
  // All spaces

  /** The result of `initialize_spaces`: `ok` is false when it raised, and
      `ids` is the list it returns. */
  datatype Batch = Batch(ok: bool, ids: seq<string>, st: FsState)

  /** Set up `spaces` in order, after the ids already collected in `ids`. */
  function InitializeEach(st: FsState, config: AppConfig, spaces: seq<Space>, ids: seq<string>, force: bool): Batch
    decreases |spaces|
  {
    if spaces == [] then Batch(true, ids, st)
    else
      var r := InitSpace(st, config, spaces[0], force);
      if !r.ok then Batch(false, ids, r.st)
      else InitializeEach(r.st, config, spaces[1..], if r.created then ids + [spaces[0].id] else ids, force)
  }

  /** `initialize_spaces`: every configured space in the configuration's order. */
  function InitializeAll(st: FsState, config: AppConfig, force: bool): Batch
  {
    InitializeEach(st, config, config.spaces, [], force)
  }

  /** The ids of the spaces, in order. */
  function SpaceIds(spaces: seq<Space>): (ids: seq<string>)
    ensures |ids| == |spaces| && forall i :: 0 <= i < |spaces| ==> ids[i] == spaces[i].id
  {
    if spaces == [] then [] else [spaces[0].id] + SpaceIds(spaces[1..])
  }

  /** A forced run that succeeds reports every space, in order. */
  lemma {:induction false} ForcedRunListsAll(st: FsState, config: AppConfig, spaces: seq<Space>, ids: seq<string>)
    ensures var b := InitializeEach(st, config, spaces, ids, true);
      b.ok ==> b.ids == ids + SpaceIds(spaces)
    decreases |spaces|
  {
    if spaces != [] {
      var space := spaces[0];
      var r := InitSpace(st, config, space, true);
      var devices := GetDevicesForSpace(config, space);
      InitStepsEffect(st, PathsOf(space), RoleDoc(space, devices), Json(GenerateMcpJson(devices)),
                      LogsDoc(space), true);
      if r.ok {
        ForcedRunListsAll(r.st, config, spaces[1..], ids + [spaces[0].id]);
      }
    }
  }

  /** The run keeps the ids collected before it and adds only ids of the
      spaces it was given. */
  lemma {:induction false} ReportedIdsAreSpaces(st: FsState, config: AppConfig, spaces: seq<Space>, ids: seq<string>, force: bool)
    ensures var b := InitializeEach(st, config, spaces, ids, force);
      ids <= b.ids && forall k :: |ids| <= k < |b.ids| ==> b.ids[k] in SpaceIds(spaces)
    decreases |spaces|
  {
    if spaces != [] {
      var r := InitSpace(st, config, spaces[0], force);
      if r.ok {
        var ids' := if r.created then ids + [spaces[0].id] else ids;
        ReportedIdsAreSpaces(r.st, config, spaces[1..], ids', force);
        var b := InitializeEach(r.st, config, spaces[1..], ids', force);
        assert SpaceIds(spaces) == [spaces[0].id] + SpaceIds(spaces[1..]);
        forall k | |ids| <= k < |b.ids| ensures b.ids[k] in SpaceIds(spaces) {
          if k < |ids'| {
            assert b.ids[k] == ids'[k] == spaces[0].id;
          }
        }
      }
    }
  }

  /** A run keeps files and directories apart, never removes anything, and,
      when it succeeds, leaves every space it was given present. */
  lemma {:induction false} EachMaterialises(st: FsState, config: AppConfig, spaces: seq<Space>, ids: seq<string>, force: bool)
    requires Consistent(st)
    ensures var b := InitializeEach(st, config, spaces, ids, force);
      && Consistent(b.st) && st.dirs <= b.st.dirs && st.files.Keys <= b.st.files.Keys
      && (b.ok ==> forall s :: s in spaces ==> Materialised(b.st, PathsOf(s)))
    decreases |spaces|
  {
    if spaces != [] {
      var space := spaces[0];
      var r := InitSpace(st, config, space, force);
      InitSpaceFrame(st, config, space, force);
      if r.ok {
        var devices := GetDevicesForSpace(config, space);
        InitStepsMaterialises(st, PathsOf(space), RoleDoc(space, devices), Json(GenerateMcpJson(devices)),
                              LogsDoc(space), force);
        var ids' := if r.created then ids + [space.id] else ids;
        EachMaterialises(r.st, config, spaces[1..], ids', force);
        var b := InitializeEach(r.st, config, spaces[1..], ids', force);
        forall s | s in spaces ensures b.ok ==> Materialised(b.st, PathsOf(s)) {
          if s != space {
            assert s in spaces[1..];
          }
        }
      }
    }
  }

  /** An unforced run over spaces that are all present writes nothing and
      reports no space. */
  lemma {:induction false} NothingToDo(st: FsState, config: AppConfig, spaces: seq<Space>, ids: seq<string>)
    requires Consistent(st)
    requires forall s :: s in spaces ==> Materialised(st, PathsOf(s))
    ensures InitializeEach(st, config, spaces, ids, false) == Batch(true, ids, st)
    decreases |spaces|
  {
    if spaces != [] {
      var space := spaces[0];
      var devices := GetDevicesForSpace(config, space);
      InitStepsNothingToDo(st, PathsOf(space), RoleDoc(space, devices), Json(GenerateMcpJson(devices)),
                           LogsDoc(space));
      assert forall s :: s in spaces[1..] ==> s in spaces;
      NothingToDo(st, config, spaces[1..], ids);
    }
  }

  /** Running the whole setup a second time without `force` reports no space
      and leaves the filesystem as it was. */
  lemma InitializeAllTwice(st: FsState, config: AppConfig, force: bool)
    requires Consistent(st)
    ensures var b := InitializeAll(st, config, force);
      b.ok ==> InitializeAll(b.st, config, false) == Batch(true, [], b.st)
  {
    var b := InitializeAll(st, config, force);
    EachMaterialises(st, config, config.spaces, [], force);
    if b.ok {
      NothingToDo(b.st, config, config.spaces, []);
    }
  }

  /** One space of a run, given its outcome. */
  lemma EachStep(st: FsState, config: AppConfig, spaces: seq<Space>, ids: seq<string>, force: bool, r: Outcome)
    requires spaces != [] && r == InitSpace(st, config, spaces[0], force)
    ensures InitializeEach(st, config, spaces, ids, force)
            == if !r.ok then Batch(false, ids, r.st)
               else InitializeEach(r.st, config, spaces[1..], if r.created then ids + [spaces[0].id] else ids, force)
  {
  }

  /** One round of the loop of `initialize_spaces`: set up the first of
      `spaces` and collect its id when something was written. */
  method InitializeNext(fs: FileSystem, config: AppConfig, spaces: seq<Space>, ids: seq<string>, force: bool)
    returns (ok: bool, ids': seq<string>)
    requires spaces != []
    modifies fs
    ensures var r := InitSpace(old(fs.State()), config, spaces[0], force);
      && ok == r.ok && fs.State() == r.st
      && ids' == if r.ok && r.created then ids + [spaces[0].id] else ids
    ensures InitializeEach(old(fs.State()), config, spaces, ids, force)
            == if ok then InitializeEach(fs.State(), config, spaces[1..], ids', force) else Batch(false, ids', fs.State())
  {
    ghost var before := fs.State();
    var created;
    ok, created := InitializeSpace(fs, config, spaces[0], force);
    EachStep(before, config, spaces, ids, force, Outcome(ok, created, fs.State()));
    ids' := if ok && created then ids + [spaces[0].id] else ids;
  }

  /** `initialize_spaces` on a filesystem that changes in place. */
  method InitializeSpaces(fs: FileSystem, config: AppConfig, force: bool) returns (ok: bool, ids: seq<string>)
    modifies fs
    ensures Batch(ok, ids, fs.State()) == InitializeAll(old(fs.State()), config, force)
  {
    ghost var st := fs.State();
    ids := [];
    var i := 0;
    while i < |config.spaces|
      invariant 0 <= i <= |config.spaces|
      invariant InitializeAll(st, config, force) == InitializeEach(fs.State(), config, config.spaces[i..], ids, force)
    {
      assert config.spaces[i..][1..] == config.spaces[i + 1..];
      ok, ids := InitializeNext(fs, config, config.spaces[i..], ids, force);
      if !ok {
        return;
      }
      i := i + 1;
    }
    ok := true;
  }
}

=== FILE: text.dfy ===
/** String helpers with the meaning Python gives them: `str(n)` for integers,
    `sep.join(parts)`, `s.split(c)` and `s.strip()`. Each comes with the
    property that a reader of the generated text relies on (a decimal string
    parses back to its number, a joined list splits back into its parts). */
module Text {
  import opened Wrappers

  predicate IsDigit(c: char) { '0' <= c <= '9' }

  predicate AllDigits(s: string) { forall i :: 0 <= i < |s| ==> IsDigit(s[i]) }

  function DigitChar(d: nat): (c: char)
    requires d < 10
    ensures IsDigit(c) && c as int - '0' as int == d
  {
    ['0', '1', '2', '3', '4', '5', '6', '7', '8', '9'][d]
  }

  /** Python `str(n)` for a non-negative integer: decimal, no leading zeros. */
  function NatToString(n: nat): (s: string)
    ensures |s| >= 1 && AllDigits(s)
    ensures |s| > 1 ==> s[0] != '0'
  {
    if n < 10 then [DigitChar(n)] else NatToString(n / 10) + [DigitChar(n % 10)]
  }

  /** Python `str(n)` (and an f-string `{n}`) for any integer. */
  function IntToString(n: int): (s: string)
    ensures |s| >= 1
    ensures forall i :: 0 <= i < |s| ==> IsDigit(s[i]) || (i == 0 && s[i] == '-' && n < 0)
  {
    if n < 0 then "-" + NatToString(-n) else NatToString(n)
  }

  /** Value of a string of decimal digits (most significant first). */
  function ParseNat(s: string): nat
    requires AllDigits(s)
  {
    if s == [] then 0 else ParseNat(s[..|s| - 1]) * 10 + DigitValue(s[|s| - 1])
  }

  function DigitValue(c: char): nat
    requires IsDigit(c)
  {
    c as int - '0' as int
  }

  /** Reads back what IntToString writes: an optional '-' and at least one digit. */
  function ParseInt(s: string): Option<int>
  {
    if |s| >= 2 && s[0] == '-' && AllDigits(s[1..]) then Some(0 - ParseNat(s[1..]) as int)
    else if |s| >= 1 && AllDigits(s) then Some(ParseNat(s))
    else None
  }

  lemma {:induction false} ParseNatToString(n: nat)
    ensures ParseNat(NatToString(n)) == n
  {
    if n >= 10 {
      var s := NatToString(n);
      assert s[..|s| - 1] == NatToString(n / 10);
      ParseNatToString(n / 10);
    }
  }

  /** Decimal rendering of an integer is lossless. */
  lemma IntToStringRoundTrip(n: int)
    ensures ParseInt(IntToString(n)) == Some(n)
  {
    if n < 0 {
      SignedDigits(-n);
    } else {
      UnsignedDigits(n);
    }
  }

  lemma SignedDigits(m: nat)
    ensures ParseInt("-" + NatToString(m)) == Some(0 - m)
  {
    var digits := NatToString(m);
    ParseNatToString(m);
    assert ("-" + digits)[1..] == digits;
  }

  lemma UnsignedDigits(m: nat)
    ensures ParseInt(NatToString(m)) == Some(m)
  {
    var digits := NatToString(m);
    ParseNatToString(m);
    assert IsDigit(digits[0]);
  }

  /** A rendered integer holds only digits and a minus sign, so it can never
      contain a separator such as a newline, a colon or a bracket. */
  lemma IntToStringHasNo(n: int, c: char)
    requires c != '-' && !IsDigit(c)
    ensures c !in IntToString(n)
  {
    var s := IntToString(n);
    forall i | 0 <= i < |s| ensures s[i] != c {
      assert IsDigit(s[i]) || s[i] == '-';
    }
  }

  predicate EndsWith(s: string, suffix: string)
  {
    |suffix| <= |s| && s[|s| - |suffix|..] == suffix
  }

  /** A concatenation starts with its first part and ends with its last. */
  lemma PrefixAndSuffix(a: string, b: string, c: string)
    ensures a <= a + b + c && EndsWith(a + b + c, c)
  {
    assert (a + b + c)[|a + b|..] == c;
  }

  /** A suffix of a suffix is a suffix. */
  lemma EndsWithTrans(s: string, t: string, u: string)
    requires EndsWith(s, t) && EndsWith(t, u)
    ensures EndsWith(s, u)
  {
    assert s[|s| - |u|..] == t[|t| - |u|..];
  }

  /** Python `sep.join(parts)`. */
  function Join(parts: seq<string>, sep: string): string
  {
    if |parts| == 0 then "" else if |parts| == 1 then parts[0] else parts[0] + sep + Join(parts[1..], sep)
  }

  /** Python `s.find(c)`, with None for -1. */
  function IndexOf(s: string, c: char): (r: Option<nat>)
    ensures r.Some? ==> r.value < |s| && s[r.value] == c && forall k :: 0 <= k < r.value ==> s[k] != c
    ensures r.None? ==> c !in s
  {
    if s == [] then None
    else if s[0] == c then Some(0)
    else match IndexOf(s[1..], c)
      case None => None
      case Some(i) => Some(i + 1)
  }

  /** Python `s.rfind(c)`, with None for -1. */
  function LastIndexOf(s: string, c: char): (r: Option<nat>)
    ensures r.Some? ==> r.value < |s| && s[r.value] == c && forall k :: r.value < k < |s| ==> s[k] != c
    ensures r.None? ==> c !in s
  {
    if s == [] then None
    else if s[|s| - 1] == c then Some(|s| - 1)
    else LastIndexOf(s[..|s| - 1], c)
  }

  /** Python `s.split(c)`: always at least one part; the parts hold no `c`. */
  function Split(s: string, c: char): (parts: seq<string>)
    ensures |parts| >= 1
    ensures forall i :: 0 <= i < |parts| ==> c !in parts[i]
    decreases |s|
  {
    match IndexOf(s, c)
    case None => [s]
    case Some(i) => [s[..i]] + Split(s[i + 1..], c)
  }

  lemma {:induction false} IndexOfAfter(a: string, c: char, b: string)
    requires c !in a
    ensures IndexOf(a + [c] + b, c) == Some(|a|)
    decreases |a|
  {
    var s := a + [c] + b;
    if a != [] {
      assert s[0] == a[0] != c;
      assert s[1..] == a[1..] + [c] + b;
      IndexOfAfter(a[1..], c, b);
    }
  }

  lemma {:induction false} LastIndexOfBefore(a: string, c: char, b: string)
    requires c !in b
    ensures LastIndexOf(a + [c] + b, c) == Some(|a|)
    decreases |b|
  {
    var s := a + [c] + b;
    if b != [] {
      assert s[|s| - 1] == b[|b| - 1] != c;
      assert s[..|s| - 1] == a + [c] + b[..|b| - 1];
      LastIndexOfBefore(a, c, b[..|b| - 1]);
    }
  }

  /** Splitting `a + [c] + b`, where `a` holds no `c`, gives `a` and then
      the parts of `b`. */
  lemma SplitFirst(a: string, c: char, b: string)
    requires c !in a
    ensures Split(a + [c] + b, c) == [a] + Split(b, c)
  {
    var s := a + [c] + b;
    IndexOfAfter(a, c, b);
    assert s[..|a|] == a;
    assert s[|a| + 1..] == b;
  }

  /** After a line break, a text without one is the last line. */
  lemma LastLineAfter(front: string, line: string)
    requires '\n' !in line
    ensures LastIndexOf(front + ("\n" + line), '\n') == Some(|front|)
    ensures (front + ("\n" + line))[|front| + 1..] == line
  {
    assert front + ("\n" + line) == front + "\n" + line;
    LastIndexOfBefore(front, '\n', line);
  }

  /** A line break in a concatenation comes from one of its parts. */
  lemma NoBreakIn(a: string, b: string, c: string)
    requires '\n' !in a && '\n' !in b && '\n' !in c
    ensures '\n' !in a + b + c
  {
  }

  /** The first line of a text: everything before its first line break. */
  function FirstLine(s: string): string
  {
    Split(s, '\n')[0]
  }

  /** The first part of a text that starts with `a` and a separator is `a`. */
  lemma SplitFirstLine(s: string, a: string, c: char)
    requires a + [c] <= s && c !in a
    ensures Split(s, c)[0] == a
  {
    assert s == a + [c] + s[|a| + 1..];
    SplitFirst(a, c, s[|a| + 1..]);
  }

  /** Joining with `c` and splitting on `c` gives the parts back when no part
      holds `c` (the reader's view of a list of lines). */
  lemma {:induction false} SplitJoin(parts: seq<string>, c: char)
    requires |parts| >= 1
    requires forall i :: 0 <= i < |parts| ==> c !in parts[i]
    ensures Split(Join(parts, [c]), c) == parts
  {
    if |parts| == 1 {
      assert IndexOf(parts[0], c) == None;
    } else {
      var rest := Join(parts[1..], [c]);
      assert Join(parts, [c]) == parts[0] + [c] + rest;
      SplitFirst(parts[0], c, rest);
      SplitJoin(parts[1..], c);
      assert parts == [parts[0]] + parts[1..];
    }
  }

  /** The characters Python's `str.isspace()` accepts. */
  const Whitespace: set<char> := {
    '\t', '\n', '\U{0B}', '\U{0C}', '\r', '\U{1C}', '\U{1D}', '\U{1E}', '\U{1F}', ' ',
    '\U{85}', '\U{A0}', '\U{1680}',
    '\U{2000}', '\U{2001}', '\U{2002}', '\U{2003}', '\U{2004}', '\U{2005}', '\U{2006}',
    '\U{2007}', '\U{2008}', '\U{2009}', '\U{200A}',
    '\U{2028}', '\U{2029}', '\U{202F}', '\U{205F}', '\U{3000}'}

  predicate IsSpace(c: char)
  {
    c in Whitespace
  }

  predicate AllSpace(s: string) { forall i :: 0 <= i < |s| ==> IsSpace(s[i]) }

  /** The number of whitespace characters `s` starts with. */
  function Indent(s: string): (n: nat)
    ensures n <= |s| && AllSpace(s[..n])
    ensures n == |s| || !IsSpace(s[n])
  {
    if s != [] && IsSpace(s[0]) then
      var m := Indent(s[1..]);
      assert s[..1 + m] == [s[0]] + s[1..][..m];
      1 + m
    else 0
  }

  /** `s.rstrip()`: drops the trailing whitespace and nothing else. */
  function TrimEnd(s: string): (r: string)
    ensures r <= s
    ensures AllSpace(s[|r|..])
    ensures r == [] || !IsSpace(r[|r| - 1])
  {
    if s != [] && IsSpace(s[|s| - 1]) then TrimEnd(s[..|s| - 1]) else s
  }

  /** Python `s.strip()`: what follows the leading whitespace, up to where
      only whitespace remains; it neither starts nor ends with whitespace. */
  function Strip(s: string): (r: string)
    ensures var i := Indent(s); i + |r| <= |s| && r == s[i..i + |r|] && AllSpace(s[i + |r|..])
    ensures r == [] || (!IsSpace(r[0]) && !IsSpace(r[|r| - 1]))
  {
    var i := Indent(s);
    var r := TrimEnd(s[i..]);
    StripParts(s, i, r);
    r
  }

  lemma StripParts(s: string, i: nat, r: string)
    requires i <= |s| && (i == |s| || !IsSpace(s[i]))
    requires r <= s[i..] && AllSpace(s[i..][|r|..])
    ensures i + |r| <= |s| && r == s[i..i + |r|] && AllSpace(s[i + |r|..])
    ensures r == [] || !IsSpace(r[0])
  {
    assert s[i..][|r|..] == s[i + |r|..];
  }
}

=== FILE: wrappers.dfy ===
/** Optional values and results with an error, used wherever the source returns
    "nothing" or raises. */
module Wrappers {

  datatype Option<+T> = None | Some(value: T)

  datatype Result<+T, +E> = Ok(value: T) | Err(error: E)
}
